=== FILE: README.md ===
# Student records: a Dafny model

This project models the core of a small student-records web application. An
administrator approves the accounts students sign up for. The administrator
manages the subject catalogue and enters one score per (student, subject)
pair. Students see their own average and their academic record with a
PASSED / FAILED mark per subject.

The application keeps four JSON collections in the browser's local storage:
accounts, subjects, grades and an analysis log. The UI holds a snapshot of
the first three. Most handlers change the snapshot optimistically, write to
the store, and then re-read all three lists. There are three exceptions:

- The signup callback has no optimistic step.
- The grade handler re-reads only the grades.
- The status handler writes nothing when the target account is not in
  the snapshot.

The model is purely functional:

- `Types`: the records of `types.ts`.
- `Lists`: the JavaScript array operations the code relies on. These are
  `find`, `findIndex`, `filter`, the "replace at index or push" upsert and
  the `map` that replaces by id.
- `Queries`: the selections several screens share.
- `Storage`: the storage service. The store is a `Blob` with one optional
  list per key; `None` is a missing key, which every getter reads as `[]`.
- `App`: the handlers of `App.tsx`. Each one is a single step on a session
  (UI snapshot, store). Whether the write and the re-read succeed is an
  input.
- `Auth`: the login / signup form.
- `Gradebook`: selection, score entry, the subject form and the AI analysis.
- `Directory`: the search and the two modes of the student directory.
- `Dashboard`: the counters, chart bars, averages and record.
- `Layout`: the role-filtered navigation menu.

Behaviour worth noting:

- Only the two delete handlers catch a failed write and re-read the store
  (`App.tsx` lines 86-90 and 133-136). In every other handler a failed
  write leaves the optimistic snapshot in place.
- The Gradebook's "active students" are all accounts with the student role,
  pending and rejected ones included (`components/Gradebook.tsx` line 27).
- The score is clamped to [0, 100] by the Gradebook. The store keeps
  whatever score it is given.

## Model

| member | source | states |
|---|---|---|
| Lists.FirstIndex | services/storage.ts:127-130 | `findIndex`: None exactly when no element satisfies the predicate; otherwise the index satisfies it and no earlier index does |
| Lists.FirstIndexIs | services/storage.ts:127-130 | a satisfying index with no earlier satisfying index is the one `findIndex` returns |
| Lists.Find | components/Gradebook.tsx:52 | `find`: None exactly when nothing satisfies the predicate; otherwise the element at `findIndex`'s position |
| Lists.Filter | components/Dashboard.tsx:14-16 | `filter`: keeps exactly the satisfying elements, in order, as a subsequence; keeps the whole list when all satisfy |
| Lists.FilterCountOf | components/Dashboard.tsx:14-16 | `filter` keeps every copy of a satisfying element and no copy of any other element |
| Lists.FilterMembership | components/Layout.tsx:42 | an element is in the filtered list exactly when it is in the list and satisfies the predicate |
| Lists.FilterAppend | services/storage.ts:148-150 | filtering distributes over concatenation, so appending to the log extends the filtered log |
| Lists.FilterDisjointLength | components/Dashboard.tsx:15-16 | two predicates that never hold together select at most the list's length between them |
| Lists.FilterComplementLength | components/StudentDirectory.tsx:27-30 | complementary predicates split the list exactly |
| Lists.FilterAgrees | components/StudentDirectory.tsx:24-26 | predicates that agree on every element filter alike |
| Lists.FindAfterFilter | components/Dashboard.tsx:80 | finding `q` in the `p`-filtered list finds the first element satisfying both |
| Lists.FilterKeepsUniqueKeys | services/storage.ts:83 | filtering never introduces a repeated key |
| Lists.UpsertBy | services/storage.ts:70-75 | replaces the first entry with the key in place, or appends; afterwards the key is found |
| Lists.UpsertIdempotent | services/storage.ts:67-77 | upserting the same record twice equals upserting it once |
| Lists.UpsertKeepsUniqueKeys | services/storage.ts:67-77 | unique keys stay unique, the key set gains exactly the record's key, and the only entry with that key is the record |
| Lists.ReplaceAllBy | App.tsx:70 | the optimistic `map` replaces every entry with the key and keeps all others, same length |
| Lists.ReplaceAllAgreesWithUpsert | App.tsx:68-73 | with unique keys, the optimistic replace equals the store's upsert when the key is present, and changes nothing when it is absent |
| Queries.Students | components/Dashboard.tsx:14 | exactly the student-role accounts, in order |
| Queries.WithStatus | components/Dashboard.tsx:15-16 | exactly the accounts in the given status, in order |
| Queries.GradesOfStudent | components/Dashboard.tsx:31 | exactly the student's grades, in order |
| Queries.GradesOfSubject | components/Dashboard.tsx:20 | exactly the subject's grades, in order |
| Queries.GradeFor | components/Gradebook.tsx:52 | None exactly when the pair has no grade; otherwise the first stored grade of that pair, as `find` returns it |
| Queries.FindUser | components/Gradebook.tsx:68 | None exactly when no account has the id; otherwise the first stored account with it, as `find` returns it |
| Storage.GetUsers | services/storage.ts:62-65 | a missing key reads as the empty list, a present one as its contents |
| Storage.GetSubjects | services/storage.ts:92-95 | a missing key reads as the empty list, a present one as its contents |
| Storage.GetGrades | services/storage.ts:118-121 | a missing key reads as the empty list, a present one as its contents |
| Storage.GetAnalyses | services/storage.ts:143 | a missing log key reads as the empty list |
| Storage.Init | services/storage.ts:39-55 | seeds only the missing keys (the administrator, the four default subjects, no grades); present keys and the log are untouched |
| Storage.InitIdempotent | services/storage.ts:39-55 | seeding twice equals seeding once |
| Storage.InitFirstRun | services/storage.ts:17-55 | on an empty store the accounts are exactly the administrator, the subjects are the defaults, and there are no grades or analyses |
| Storage.SaveUser | services/storage.ts:67-77 | the account list becomes the upsert of the old one: only the first entry with the id is replaced, in place, or the account is appended; it is then found by id; other accounts keep their positions; the list grows exactly when the id was new, by appending; other collections unchanged |
| Storage.SaveSubject | services/storage.ts:97-104 | the subject list becomes the upsert of the old one: only the first entry with the id is replaced, in place, or the subject is appended; other collections unchanged |
| Storage.SaveUserIdempotent | services/storage.ts:67-77 | saving an account twice equals saving it once |
| Storage.SaveSubjectIdempotent | services/storage.ts:97-104 | saving a subject twice equals saving it once |
| Storage.SaveUserKeepsIdsUnique | services/storage.ts:67-77 | unique account ids stay unique, and the only account with the saved id is the saved one |
| Storage.GradeSlot | services/storage.ts:127-130 | the first entry matching by id or by (student, subject) pair, and no earlier entry matches either way |
| Storage.UpsertGrade | services/storage.ts:132-137 | a matched entry is overwritten in place but keeps its old id; otherwise the grade is appended; the pair's grade then has the new score and semester |
| Storage.SaveGrade | services/storage.ts:123-139 | the grade list becomes the id-or-pair upsert of the old list, so every other entry is kept; the pair's grade carries the saved score; other collections unchanged |
| Storage.UpsertGradeIdempotent | services/storage.ts:123-139 | saving a grade twice equals saving it once |
| Storage.SaveGradeIdempotent | services/storage.ts:123-139 | the same at the level of the store |
| Storage.UpsertGradeKeepsIntegrity | services/storage.ts:127-137 | when the incoming id is unused or already the pair's, unique ids and unique pairs are preserved |
| Storage.UpsertGradeSettlesPair | services/storage.ts:132-134 | after a save every entry of the pair is the saved grade carrying the kept id |
| Storage.SaveGradeTwice | services/storage.ts:123-139 | two saves to the same pair leave one entry for the pair, with the second score and the first save's id |
| Storage.SaveGradeNeedsFittingId | services/storage.ts:127-134 | an id belonging to another pair makes the id match win, overwrite the other pair's entry, and duplicate a pair |
| Storage.DeleteUser | services/storage.ts:79-90 | removes exactly the accounts with the id and, in cascade, exactly their grades, keeping order; subjects and log unchanged |
| Storage.DeleteSubject | services/storage.ts:106-116 | removes exactly the subjects with the id and their grades, keeping order; accounts and log unchanged |
| Storage.DeletesKeepNoDangling | services/storage.ts:79-116 | if every grade refers to an existing account and subject, both deletes keep it so |
| Storage.DeleteAbsentUserIsNoop | services/storage.ts:79-90 | deleting an unknown account from a store without dangling grades changes nothing |
| Storage.DeleteAbsentSubjectIsNoop | services/storage.ts:106-116 | deleting an unknown subject from a store without dangling grades changes nothing |
| Storage.SaveAnalysis | services/storage.ts:142-146 | appends the result to the log and touches nothing else |
| Storage.GetAnalysis | services/storage.ts:148-151 | None exactly when the student has no entry; otherwise one of that student's entries |
| Storage.AppendedEntries | services/storage.ts:144-150 | appending an entry extends a student's filtered entries by it exactly when it is that student's |
| Storage.LatestAnalysisWins | services/storage.ts:142-151 | the lookup returns the entry just saved, and other students' lookups are unchanged |
| App.RefreshData | App.tsx:26-43 | a successful re-read puts the snapshot in sync with the store; a failed one leaves it unchanged |
| App.SetStatus | App.tsx:58 | only the status of the accounts with the id changes; same length |
| App.OptimisticGrade | App.tsx:97-101 | replace every entry with the payload's id when one exists, else append |
| App.HandleUpdateStatus | App.tsx:56-66 | an unknown target changes nothing; otherwise the stored target is saved with the new status; with no failure the snapshot is in sync; a failed write leaves the optimistic snapshot |
| App.HandleEditUser | App.tsx:68-74 | saves the account; in sync on success; optimistic replace otherwise |
| App.HandleDeleteUser | App.tsx:76-92 | nothing without confirmation; otherwise deletes, and any successful re-read (also after a failed delete) puts the snapshot in sync |
| App.HandleGradeChange | App.tsx:94-106 | saves the grade and re-reads only the grades; accounts and subjects untouched; optimistic upsert on failure |
| App.HandleSubjectSave | App.tsx:108-121 | saves the subject; in sync on success; optimistic upsert otherwise |
| App.HandleSubjectDelete | App.tsx:123-138 | nothing without confirmation; otherwise deletes, and any successful re-read puts the snapshot in sync |
| App.HandleSignup | App.tsx:144-147 | saves the new account and re-reads; a failed write changes nothing |
| App.DeleteRefreshBringsCascade | App.tsx:76-92 | a successful delete shows the cascade (no grade of the removed account or subject); a failed re-read keeps the old grades |
| App.FailedDeleteReverts | App.tsx:86-90 | a failed delete followed by a re-read restores exactly the previous session |
| App.StatusGuessIsExact | App.tsx:56-65 | with unique ids the optimistic status change is what the store returns |
| App.EditGuessIsExact | App.tsx:68-73 | with unique ids the optimistic edit of a known account is exact; an unknown id is invisible optimistically but appended by the store |
| App.SubjectGuessIsExact | App.tsx:108-120 | the optimistic subject save is what the store returns |
| App.DeleteGuess | App.tsx:76-85 | the optimistic delete predicts the accounts exactly, and the grades exactly when the account had none |
| App.OnlyEntryOfPair | services/storage.ts:127-130 | with unique ids and pairs, the entry holding the payload's id and pair is the only one `findIndex` can match |
| App.UpsertAgreesWithGuess | App.tsx:97-103 | for a payload carrying its pair's id or an unused id, the store's id-or-pair upsert equals the optimistic id-only upsert |
| App.GradeGuessIsExact | App.tsx:94-105 | for a payload carrying the pair's existing id or a fresh id, the optimistic grade list is what the store returns |
| Auth.Login | components/Auth.tsx:27-39 | "Invalid credentials" exactly when nothing matches; pending and rejected matches get their messages; the first matching account is accepted exactly when it is approved, whether or not usernames are unique |
| Auth.ApprovedAccountLogsIn | components/Auth.tsx:28-35 | with unique usernames an approved account with a password is let in with it |
| Auth.Signup | components/Auth.tsx:40-55 | refused exactly when the username is taken; otherwise a pending student built from the form with the fresh id |
| Auth.HandleSubmit | components/Auth.tsx:22-62 | messages cleared; a login calls `onLogin` with exactly the account the login check accepts, or shows the check's refusal message; a signup calls `onSignup` with exactly the account the signup check creates and resets to login mode with a cleared form, or, when the username is used, shows the "taken" error and keeps the signup mode and the form |
| Auth.SignupKeepsAccountsUnique | App.tsx:144-147 | a signup saved to a store with unique ids and usernames keeps both unique |
| Gradebook.InitialSelection | components/Gradebook.tsx:30 | the first student's id, or empty when there is none |
| Gradebook.FallbackSelection | components/Gradebook.tsx:37-43 | a valid selection is kept; an invalid one moves to the first student; with students the result is always a student's id |
| Gradebook.FallbackSettles | components/Gradebook.tsx:37-43 | the effect reaches a fixpoint after one step |
| Gradebook.ClampScore | components/Gradebook.tsx:49-55 | always in [0, 100]; not a number gives 0; in-range scores kept; out-of-range scores clamped to the nearer end |
| Gradebook.ScorePayload | components/Gradebook.tsx:45-64 | no payload exactly without a selection; otherwise the pair, the semester, the clamped score, and the pair's existing id or a fresh one |
| Gradebook.PayloadIdFits | components/Gradebook.tsx:52-58 | such a payload never carries another pair's id |
| Gradebook.ScoreEntryKeepsIntegrity | components/Gradebook.tsx:45-64 | entering a score keeps the session in sync, ids and pairs unique, the optimistic guess exact, and records the clamped score |
| Gradebook.HandleSubjectSubmit | components/Gradebook.tsx:90-109 | the form's id when editing, a fresh id otherwise; fields copied; form reset and editing off |
| Gradebook.SubjectSubmitEffect | components/Gradebook.tsx:90-99 | editing an existing subject keeps the count; creating with a fresh id adds one |
| Gradebook.HandleAIAnalysis | components/Gradebook.tsx:67-88 | nothing for an unknown id; otherwise the generator is given only that student's grades, and the result is appended to the log (earlier entries kept), becoming the student's latest analysis, without touching other collections |
| Directory.Lower | components/StudentDirectory.tsx:25-26 | same length, each character lowered, no upper-case letter left |
| Directory.LowerIdempotent | components/StudentDirectory.tsx:25-26 | lowering twice equals lowering once |
| Directory.ContainsIffOccurs | components/StudentDirectory.tsx:25-26 | `includes` holds exactly when the needle occurs at some position; the empty string is always included |
| Directory.Displayed | components/StudentDirectory.tsx:24-31 | an account is shown exactly when it is in the list, is pending exactly in approvals mode, and its name or e-mail contains the term, ignoring case |
| Directory.SearchIgnoresCase | components/StudentDirectory.tsx:25-26 | a term and its lower-case form show the same rows |
| Directory.ModesSplitAccounts | components/StudentDirectory.tsx:27-30 | the two modes never share an account; with an empty term they partition the accounts |
| Directory.Press | components/StudentDirectory.tsx:109-145 | approvals rows offer exactly approve and reject, directory rows exactly edit and delete; Edit opens the editor on that account and Delete asks to delete its id |
| Directory.ApprovedLeavesQueue | components/StudentDirectory.tsx:27-30 | after approval the account is in the directory (if it matches the term) and no account with its id is in the queue |
| Directory.ApproveMovesRow | components/StudentDirectory.tsx:111-112 | pressing Approve on a queued row, with storage working, moves it from the queue to the directory |
| Dashboard.SumBetween | components/Dashboard.tsx:22 | scores bounded by lo and hi sum to between lo and hi times their number |
| Dashboard.Average | components/Dashboard.tsx:32-34 | 0 for no grades; otherwise the average times the count is the sum |
| Dashboard.AverageBetween | components/Dashboard.tsx:21-23 | the average of bounded scores is bounded the same way |
| Dashboard.AverageInRange | components/Dashboard.tsx:178 | in-range scores average inside the chart's 0-100 axis |
| Dashboard.AdminCounts | components/Dashboard.tsx:14-16 | students, pending and approved counts among students, and the subject count; pending plus approved never exceed the students |
| Dashboard.SubjectPerformance | components/Dashboard.tsx:19-28 | one bar per subject in order, named by code, showing that subject's average |
| Dashboard.BarsFitAxis | components/Dashboard.tsx:19-28 | every bar fits the 0-100 axis, and an ungraded subject shows 0 |
| Dashboard.MarkOf | components/Dashboard.tsx:94-105 | NO GRADE exactly without a grade; PASSED exactly at 75 and above |
| Dashboard.Record | components/Dashboard.tsx:79-106 | every subject in order with its code, name and units; NO GRADE exactly when the student has no grade for it; otherwise the score of one of the student's grades for it |
| Dashboard.RecordShowsStoredGrade | components/Dashboard.tsx:80 | each record row shows the mark of the grade the store's pair lookup finds |
| Dashboard.AllPassedAveragesAbove | components/Dashboard.tsx:32-34 | a student whose every grade passes averages at least 75 |
| Dashboard.Render | components/Dashboard.tsx:30-34 | the student view exactly for student accounts, built from the student's own grades; the admin view otherwise |
| Dashboard.StudentViewIgnoresOthers | components/Dashboard.tsx:31 | another student's grade does not change a student's view |
| Layout.FilteredItems | components/Layout.tsx:42 | the filtered menu equals the entry-by-entry selection of the entries listing the role |
| Layout.ShownIffRoleListed | components/Layout.tsx:42 | an entry is shown exactly when it is on the menu and lists the role |
| Layout.FilterFrom | components/Layout.tsx:42 | filtering any tail of the menu agrees with the entry-by-entry selection |
| Layout.AdminVisible | components/Layout.tsx:34-42 | an administrator's entries are the first four |
| Layout.StudentVisible | components/Layout.tsx:34-42 | a student's entries are the first and the last |
| Layout.MenuPerRole | components/Layout.tsx:34-42 | administrator: dashboard, students, approvals, grades; student: dashboard, my grades; in menu order |
| Layout.OnlyDashboardListsBoth | components/Layout.tsx:35-39 | the dashboard is the only entry listing both roles |
| Layout.DashboardIsShared | components/Layout.tsx:34-42 | every role sees the dashboard, and no other entry is shown to two roles |

## Left out

- Local storage, JSON encoding and the simulated delay are not modelled. The store is a value, and a missing key reads as the empty list.
- Malformed stored JSON is not modelled. `JSON.parse` would throw on it.
- Promises and concurrency are not modelled. Each handler is one atomic step, with the success of its write and re-read as inputs. Overlapping handlers, and the unawaited grade re-read racing later handlers, are out of scope.
- App.HandleDeleteUser: the store's account delete and grade cascade are two separate writes. A failure between them is not modelled; the delete is atomic here.
- App.HandleSubjectDelete: the store's subject delete and grade cascade are two separate writes (`services/storage.ts` lines 111 and 115). A failure between them is not modelled; the delete is atomic here.
- Storage.UpsertGrade: `saveGrade` also overwrites the id of the caller's grade object (aliasing). The model returns a new list and leaves the payload alone.
- The AI service in `services/geminiService.ts` is not part of this model. It is the function parameter `generate`, and its text is opaque.
- The analysis timestamp and generated ids are parameters (`now`, `freshId`). `Date.now()`, `Math.random()` and `new Date()` are not modelled.
- Gradebook.HandleSubjectSubmit: the credits field arrives already parsed as an integer. The `parseInt` of the credits input, which can yield NaN, is not modelled.
- Gradebook.ClampScore: `parseInt` itself is not modelled. Its result is an input, with `None` for NaN.
- Directory.Lower: lowers ASCII letters only, not the full Unicode case mapping of `toLowerCase`.
- Dashboard.Average: averages are exact rationals. The rounding to one decimal (`Math.round(avg * 10) / 10`) and `toFixed(2)` are display formatting and are not modelled.
- Dashboard.SubjectPerformance: the bars carry the unrounded average, because the display rounding is not modelled.
- Login navigation (`handleLogin`, `handleLogout`, the current page) is not modelled. Neither are the loading spinner, `alert`, or the text fields of the forms.
- The confirmation dialog is the boolean `confirmed`.
- The edit dialog (`handleEditSubmit`, `startEditSubject`) only forwards a record to the modelled handlers, so it is not modelled separately.
- Passwords are compared as plain strings, as the code does. Password security is out of scope.
- The help page (`HelpDocs.tsx`) is not modelled. Neither are the `StudentProfile` type, the menu's labels and icons, or all styling.

=== FILE: app.dfy ===
/** The reconciliation policy of `App.tsx`. The UI keeps a snapshot of the
    account, subject and grade lists. Most handlers change the snapshot
    optimistically, write to the store, and re-read all three lists; the
    signup callback has no optimistic step, and the grade change re-reads
    only the grades. A session is
    the pair (snapshot, store); each handler is one atomic step on it. The
    success of the store calls is an input (`Env`): a write either succeeds or
    leaves the store untouched, and a failed re-read is caught by
    `refreshData` and leaves the snapshot as it was. */
module App {
  import opened Wrappers
  import opened Lists
  import opened Types
  import opened Queries
  import opened Storage

  /** The UI's lists: `allUsers`, `subjects`, `grades`. */
  datatype Snapshot = Snapshot(users: seq<User>, subjects: seq<Subject>, grades: seq<Grade>)

  /** The UI snapshot together with the store it mirrors. */
  datatype Session = Session(view: Snapshot, store: Blob)

  /** Whether the handler's write succeeds and whether the following re-read
      succeeds. */
  datatype Env = Env(writeOk: bool, readOk: bool)

  /** Everything succeeds. */
  const AllOk := Env(true, true)

  /** What a complete re-read of the store yields. */
  function Read(store: Blob): Snapshot {
    Snapshot(GetUsers(store), GetSubjects(store), GetGrades(store))
  }

  /** The snapshot shows exactly what the store holds. */
  predicate InSync(s: Session) {
    s.view == Read(s.store)
  }

  /** `refreshData`: replaces the three lists with the store's; a failed read
      is caught and logged, and the snapshot stays as it was. */
  function RefreshData(view: Snapshot, store: Blob, readOk: bool): (r: Snapshot)
    ensures readOk ==> InSync(Session(r, store))
    ensures !readOk ==> r == view
  {
    if readOk then Read(store) else view
  }

  // ---------------------------------------------------------------------
  // Optimistic list changes.

  /** The optimistic status update, a `map` over the accounts: only the
      status of the accounts with that id changes. */
  function SetStatus(users: seq<User>, id: string, status: AccountStatus): (r: seq<User>)
    ensures |r| == |users|
    ensures forall i :: 0 <= i < |users| && users[i].id == id ==> r[i] == users[i].(status := status)
    ensures forall i :: 0 <= i < |users| && users[i].id != id ==> r[i] == users[i]
  {
    seq(|users|, i requires 0 <= i < |users| => if users[i].id == id then users[i].(status := status) else users[i])
  }

  /** The optimistic grade change: replace every entry with the payload's
      id, or append when no entry has it. Unlike the store it does not look
      at the (student, subject) pair. */
  function OptimisticGrade(grades: seq<Grade>, g: Grade): (r: seq<Grade>)
    ensures (exists i :: 0 <= i < |grades| && grades[i].id == g.id) ==> r == ReplaceAllBy(grades, g, GradeId)
    ensures (forall i :: 0 <= i < |grades| ==> grades[i].id != g.id) ==> r == grades + [g]
  {
    if Find(grades, KeyIs(GradeId, g.id)).Some? then ReplaceAllBy(grades, g, GradeId) else grades + [g]
  }

  // ---------------------------------------------------------------------
  // Handlers.

  /** `handleUpdateStatus`. The target is looked up in the snapshot taken
      before the optimistic change; only a present target is written, as
      that account with its status replaced. There is no catch: a failed
      write leaves the optimistic snapshot. */
  function HandleUpdateStatus(s: Session, id: string, status: AccountStatus, env: Env): (r: Session)
    ensures FindUser(s.view.users, id).None? ==> r == s
    ensures FindUser(s.view.users, id).Some? && env.writeOk ==>
      r.store == SaveUser(s.store, FindUser(s.view.users, id).value.(status := status))
    ensures !env.writeOk ==> r.store == s.store
    ensures !(env.writeOk && env.readOk) ==> r.view == s.view.(users := SetStatus(s.view.users, id, status))
    ensures FindUser(s.view.users, id).Some? && env == AllOk ==> InSync(r)
    ensures InSync(s) && env == AllOk ==> InSync(r)
  {
    var optimistic := s.view.(users := SetStatus(s.view.users, id, status));
    match FindUser(s.view.users, id)
    case None =>
      assert SetStatus(s.view.users, id, status) == s.view.users;
      Session(optimistic, s.store)
    case Some(target) =>
      if env.writeOk then
        var store := SaveUser(s.store, target.(status := status));
        Session(RefreshData(optimistic, store, env.readOk), store)
      else
        Session(optimistic, s.store)
  }

  /** `handleEditUser`: replace the account with the same id in the snapshot,
      then save it to the store (which appends it if its id is unknown). */
  function HandleEditUser(s: Session, u: User, env: Env): (r: Session)
    ensures env.writeOk ==> r.store == SaveUser(s.store, u)
    ensures !env.writeOk ==> r.store == s.store
    ensures !(env.writeOk && env.readOk) ==> r.view == s.view.(users := ReplaceAllBy(s.view.users, u, UserId))
    ensures env == AllOk ==> InSync(r)
  {
    var optimistic := s.view.(users := ReplaceAllBy(s.view.users, u, UserId));
    if env.writeOk then
      var store := SaveUser(s.store, u);
      Session(RefreshData(optimistic, store, env.readOk), store)
    else
      Session(optimistic, s.store)
  }

  /** `handleDeleteUser`, gated by the confirmation dialog. The optimistic
      step removes the account only (no cascade); a failed delete is
      reverted by re-reading the unchanged store. */
  function HandleDeleteUser(s: Session, id: string, confirmed: bool, env: Env): (r: Session)
    ensures !confirmed ==> r == s
    ensures confirmed && env.writeOk ==> r.store == DeleteUser(s.store, id)
    ensures confirmed && !env.writeOk ==> r.store == s.store
    ensures confirmed && env.readOk ==> InSync(r)
    ensures confirmed && !env.readOk ==> r.view == s.view.(users := Filter(s.view.users, KeyIsNot(UserId, id)))
  {
    if !confirmed then s
    else
      var optimistic := s.view.(users := Filter(s.view.users, KeyIsNot(UserId, id)));
      if env.writeOk then
        var store := DeleteUser(s.store, id);
        Session(RefreshData(optimistic, store, env.readOk), store)
      else
        Session(RefreshData(optimistic, s.store, env.readOk), s.store)
  }

  /** `handleGradeChange`: optimistic upsert by id, store upsert by id or
      pair, then a re-read of the grade list alone. */
  function HandleGradeChange(s: Session, g: Grade, env: Env): (r: Session)
    ensures env.writeOk ==> r.store == SaveGrade(s.store, g)
    ensures !env.writeOk ==> r.store == s.store
    ensures r.view.users == s.view.users && r.view.subjects == s.view.subjects
    ensures env == AllOk ==> r.view.grades == GetGrades(r.store)
    ensures !(env.writeOk && env.readOk) ==> r.view.grades == OptimisticGrade(s.view.grades, g)
    ensures InSync(s) && env == AllOk ==> InSync(r)
  {
    var optimistic := s.view.(grades := OptimisticGrade(s.view.grades, g));
    if env.writeOk then
      var store := SaveGrade(s.store, g);
      Session(if env.readOk then optimistic.(grades := GetGrades(store)) else optimistic, store)
    else
      Session(optimistic, s.store)
  }

  /** `handleSubjectSave`: replace at the index of the first subject with
      the same id, or append; then save and re-read. */
  function HandleSubjectSave(s: Session, sub: Subject, env: Env): (r: Session)
    ensures env.writeOk ==> r.store == SaveSubject(s.store, sub)
    ensures !env.writeOk ==> r.store == s.store
    ensures !(env.writeOk && env.readOk) ==> r.view == s.view.(subjects := UpsertBy(s.view.subjects, sub, SubjectId))
    ensures env == AllOk ==> InSync(r)
  {
    var optimistic := s.view.(subjects := UpsertBy(s.view.subjects, sub, SubjectId));
    if env.writeOk then
      var store := SaveSubject(s.store, sub);
      Session(RefreshData(optimistic, store, env.readOk), store)
    else
      Session(optimistic, s.store)
  }

  /** `handleSubjectDelete`, gated by the confirmation dialog; as
      `HandleDeleteUser` for subjects. */
  function HandleSubjectDelete(s: Session, id: string, confirmed: bool, env: Env): (r: Session)
    ensures !confirmed ==> r == s
    ensures confirmed && env.writeOk ==> r.store == DeleteSubject(s.store, id)
    ensures confirmed && !env.writeOk ==> r.store == s.store
    ensures confirmed && env.readOk ==> InSync(r)
    ensures confirmed && !env.readOk ==> r.view == s.view.(subjects := Filter(s.view.subjects, KeyIsNot(SubjectId, id)))
  {
    if !confirmed then s
    else
      var optimistic := s.view.(subjects := Filter(s.view.subjects, KeyIsNot(SubjectId, id)));
      if env.writeOk then
        var store := DeleteSubject(s.store, id);
        Session(RefreshData(optimistic, store, env.readOk), store)
      else
        Session(RefreshData(optimistic, s.store, env.readOk), s.store)
  }

  /** The `onSignup` callback: save the new account, then re-read; there is
      no optimistic step. */
  function HandleSignup(s: Session, u: User, env: Env): (r: Session)
    ensures env.writeOk ==> r.store == SaveUser(s.store, u)
    ensures !env.writeOk ==> r == s
    ensures env == AllOk ==> InSync(r)
    ensures env.writeOk && !env.readOk ==> r.view == s.view
  {
    if env.writeOk then
      var store := SaveUser(s.store, u);
      Session(RefreshData(s.view, store, env.readOk), store)
    else s
  }

  // ---------------------------------------------------------------------
  // How the optimistic guess relates to the reconciled result.

  /** A successful delete re-read brings the cascade into the snapshot,
      although the optimistic step left the grades alone. */
  lemma DeleteRefreshBringsCascade(s: Session, id: string)
    ensures var r := HandleDeleteUser(s, id, true, AllOk);
      && (forall g :: g in r.view.grades ==> g.studentId != id)
      && (forall u :: u in r.view.users ==> u.id != id)
    ensures var r := HandleSubjectDelete(s, id, true, AllOk);
      && (forall g :: g in r.view.grades ==> g.subjectId != id)
      && (forall t :: t in r.view.subjects ==> t.id != id)
    ensures HandleDeleteUser(s, id, true, Env(true, false)).view.grades == s.view.grades
    ensures HandleSubjectDelete(s, id, true, Env(true, false)).view.grades == s.view.grades
  {
  }

  /** A failed delete followed by a successful re-read restores exactly the
      state before the handler. */
  lemma FailedDeleteReverts(s: Session, id: string)
    requires InSync(s)
    ensures HandleDeleteUser(s, id, true, Env(false, true)) == s
    ensures HandleSubjectDelete(s, id, true, Env(false, true)) == s
  {
  }

  /** When account ids are unique and the target exists, the optimistic
      status change is exactly what the reconciled snapshot shows. */
  lemma StatusGuessIsExact(s: Session, id: string, status: AccountStatus)
    requires InSync(s)
    requires UniqueKeys(s.view.users, UserId)
    requires FindUser(s.view.users, id).Some?
    ensures HandleUpdateStatus(s, id, status, AllOk).view.users == SetStatus(s.view.users, id, status)
  {
    var us := s.view.users;
    var t := FindUser(us, id).value;
    var t' := t.(status := status);
    var j :| 0 <= j < |us| && us[j] == t;
    ReplaceAllAgreesWithUpsert(us, t', UserId);
    assert UserId(us[j]) == UserId(t');
    assert ReplaceAllBy(us, t', UserId) == SetStatus(us, id, status) by {
      forall i | 0 <= i < |us|
        ensures ReplaceAllBy(us, t', UserId)[i] == SetStatus(us, id, status)[i]
      {
        if us[i].id == id {
          assert i == j;
        }
      }
    }
  }

  /** When account ids are unique, the optimistic edit of an existing
      account is exactly the reconciled snapshot; the edit of an unknown id
      shows nothing optimistically while the store appends it. */
  lemma EditGuessIsExact(s: Session, u: User)
    requires InSync(s)
    requires UniqueKeys(s.view.users, UserId)
    ensures (exists v :: v in s.view.users && v.id == u.id) ==>
      HandleEditUser(s, u, AllOk).view.users == ReplaceAllBy(s.view.users, u, UserId)
    ensures (forall v :: v in s.view.users ==> v.id != u.id) ==>
      && ReplaceAllBy(s.view.users, u, UserId) == s.view.users
      && HandleEditUser(s, u, AllOk).view.users == s.view.users + [u]
  {
    var us := s.view.users;
    ReplaceAllAgreesWithUpsert(us, u, UserId);
    if exists v :: v in us && v.id == u.id {
      var v :| v in us && v.id == u.id;
      var j :| 0 <= j < |us| && us[j] == v;
      assert UserId(us[j]) == UserId(u);
    } else {
      assert u.id !in Keys(us, UserId);
      assert FindUser(us, u.id).None?;
    }
  }

  /** The optimistic subject save is always the reconciled subject list. */
  lemma SubjectGuessIsExact(s: Session, sub: Subject)
    requires InSync(s)
    ensures HandleSubjectSave(s, sub, AllOk).view.subjects == UpsertBy(s.view.subjects, sub, SubjectId)
  {
  }

  /** The optimistic delete predicts the account list exactly, and the grade
      list exactly when no grade belonged to the deleted account. */
  lemma DeleteGuess(s: Session, id: string)
    requires InSync(s)
    ensures HandleDeleteUser(s, id, true, AllOk).view.users == Filter(s.view.users, KeyIsNot(UserId, id))
    ensures HandleDeleteUser(s, id, true, AllOk).view.grades == s.view.grades
        <==> forall g :: g in s.view.grades ==> g.studentId != id
  {
    var r := HandleDeleteUser(s, id, true, AllOk);
    if r.view.grades == s.view.grades {
      forall g | g in s.view.grades
        ensures g.studentId != id
      {
        assert g in r.view.grades;
      }
    }
  }

  /** With unique ids and pairs, the entry holding both the payload's id and
      its pair is the only entry matching the payload either way. */
  lemma OnlyEntryOfPair(gs: seq<Grade>, g: Grade, k: nat)
    requires PairUnique(gs) && UniqueKeys(gs, GradeId)
    requires k < |gs| && gs[k].id == g.id && SamePair(gs[k], g)
    ensures forall j :: 0 <= j < |gs| && j != k ==> gs[j].id != g.id && !SamePair(gs[j], g)
  {
    forall j | 0 <= j < |gs| && j != k
      ensures gs[j].id != g.id && !SamePair(gs[j], g)
    {
      if j < k {
        assert gs[j].id != gs[k].id;
      } else {
        assert gs[j].id != gs[k].id && !SamePair(gs[k], gs[j]);
      }
    }
  }

  /** For a payload carrying the pair's existing id, or an unused id for a
      new pair, on a grade list with unique ids and pairs, the store's
      id-or-pair upsert and the optimistic id-only upsert agree. */
  lemma UpsertAgreesWithGuess(gs: seq<Grade>, g: Grade)
    requires PairUnique(gs) && UniqueKeys(gs, GradeId)
    requires GradeFor(gs, g.studentId, g.subjectId).Some? ==> g.id == GradeFor(gs, g.studentId, g.subjectId).value.id
    requires GradeFor(gs, g.studentId, g.subjectId).None? ==> forall h :: h in gs ==> h.id != g.id
    ensures UpsertGrade(gs, g) == OptimisticGrade(gs, g)
  {
    match GradeFor(gs, g.studentId, g.subjectId)
    case Some(e) =>
      var k := FirstIndex(gs, IsPair(g.studentId, g.subjectId)).value;
      assert gs[k] == e;
      OnlyEntryOfPair(gs, g, k);
      FirstIndexIs(gs, SlotFor(g), k);
      assert UpsertGrade(gs, g) == gs[k := g];
      assert Find(gs, KeyIs(GradeId, g.id)).Some? by {
        assert KeyIs(GradeId, g.id)(gs[k]);
      }
      assert OptimisticGrade(gs, g) == gs[k := g];
    case None =>
      assert GradeSlot(gs, g).None?;
      assert Find(gs, KeyIs(GradeId, g.id)).None?;
  }

  /** For a payload built the Gradebook's way (the pair's existing id, or a
      fresh id for a new pair) on a store with unique ids and pairs, the
      optimistic id-only upsert is exactly the reconciled grade list. */
  lemma GradeGuessIsExact(s: Session, g: Grade)
    requires InSync(s)
    requires PairUnique(s.view.grades) && UniqueKeys(s.view.grades, GradeId)
    requires GradeFor(s.view.grades, g.studentId, g.subjectId).Some? ==>
      g.id == GradeFor(s.view.grades, g.studentId, g.subjectId).value.id
    requires GradeFor(s.view.grades, g.studentId, g.subjectId).None? ==>
      forall h :: h in s.view.grades ==> h.id != g.id
    ensures HandleGradeChange(s, g, AllOk).view.grades == OptimisticGrade(s.view.grades, g)
  {
    UpsertAgreesWithGuess(s.view.grades, g);
  }
}

=== FILE: auth.dfy ===
/** The account rules of `components/Auth.tsx`: one submit handler that
    either logs in or signs up, depending on the form's mode. */
module Auth {
  import opened Wrappers
  import opened Lists
  import opened Types
  import opened Storage

  /** The form fields. */
  datatype Form = Form(username: string, password: string, fullName: string, email: string)

  const EmptyForm := Form("", "", "", "")

  /** The component's state: login or signup mode, the form, and the two
      messages it shows. */
  datatype AuthState = AuthState(isLogin: bool, form: Form, error: string, successMsg: string)

  /** The callback a submit ends in, if any. */
  datatype Effect = NoEffect | CallLogin(user: User) | CallSignup(user: User)

  datatype Submitted = Submitted(state: AuthState, effect: Effect)

  const InvalidMessage := "Invalid credentials."
  const PendingMessage := "Your account is still pending administrator approval."
  const RejectedMessage := "Your account has been rejected. Contact administration."
  const TakenMessage := "Username already taken."
  const CreatedMessage := "Account created! Please wait for admin approval before logging in."

  /** Username and stored password both equal the typed values; an account
      without a password never matches. */
  function Credentials(username: string, password: string): User -> bool {
    (u: User) => u.username == username && u.password == Some(password)
  }

  datatype LoginOutcome = Refused(message: string) | Accepted(user: User)

  /** The login branch: the first account matching the credentials is
      refused while pending or rejected, and accepted otherwise. */
  function Login(users: seq<User>, username: string, password: string): (r: LoginOutcome)
    ensures r == Refused(InvalidMessage) <==>
      forall u :: u in users ==> !(u.username == username && u.password == Some(password))
    ensures r.Accepted? ==>
      && r.user in users && r.user.username == username && r.user.password == Some(password)
      && r.user.status == Approved
    ensures r.Accepted? ==> r.user == Find(users, Credentials(username, password)).value
    ensures r == Refused(PendingMessage) <==>
      (Find(users, Credentials(username, password)).Some?
       && Find(users, Credentials(username, password)).value.status == Pending)
    ensures r == Refused(RejectedMessage) <==>
      (Find(users, Credentials(username, password)).Some?
       && Find(users, Credentials(username, password)).value.status == Rejected)
    ensures (Find(users, Credentials(username, password)).Some?
             && Find(users, Credentials(username, password)).value.status == Approved) ==>
      r == Accepted(Find(users, Credentials(username, password)).value)
  {
    match Find(users, Credentials(username, password))
    case None => Refused(InvalidMessage)
    case Some(u) =>
      match u.status
      case Pending => Refused(PendingMessage)
      case Rejected => Refused(RejectedMessage)
      case Approved => Accepted(u)
  }

  /** With unique usernames, an approved account always gets in with its own
      password. */
  lemma ApprovedAccountLogsIn(users: seq<User>, u: User)
    requires UniqueKeys(users, Username)
    requires u in users && u.status == Approved && u.password.Some?
    ensures Login(users, u.username, u.password.value) == Accepted(u)
  {
    var m := Find(users, Credentials(u.username, u.password.value));
    var i :| 0 <= i < |users| && users[i] == u;
    assert Credentials(u.username, u.password.value)(users[i]);
    var k := FirstIndex(users, Credentials(u.username, u.password.value)).value;
    assert Username(users[k]) == Username(users[i]);
  }

  datatype SignupOutcome = Taken | Created(user: User)

  /** The signup branch: refused when the username is already used,
      otherwise a pending student account built from the form. The id is a
      parameter standing for `u-${Date.now()}`. */
  function Signup(users: seq<User>, form: Form, freshId: string): (r: SignupOutcome)
    ensures r.Taken? <==> exists u :: u in users && u.username == form.username
    ensures r.Created? ==>
      && r.user.id == freshId
      && r.user.role == Student && r.user.status == Pending
      && r.user.username == form.username && r.user.password == Some(form.password)
      && r.user.fullName == form.fullName && r.user.email == form.email
  {
    if Find(users, KeyIs(Username, form.username)).Some? then Taken
    else Created(User(freshId, form.username, Some(form.password), form.fullName, Student, Pending, form.email))
  }

  /** `handleSubmit`. Both messages are cleared first. A login ends in
      `onLogin` or an error; a signup ends in `onSignup`, the success
      message, login mode and a cleared form, or in the "taken" error with
      mode and form unchanged. */
  function HandleSubmit(st: AuthState, users: seq<User>, freshId: string): (r: Submitted)
    ensures r.state.isLogin
      || (r.state == st.(error := TakenMessage, successMsg := "") && r.effect == NoEffect)
    ensures st.isLogin ==> r.state.form == st.form && r.state.successMsg == ""
    ensures st.isLogin ==>
      (r.effect.CallLogin? <==> Login(users, st.form.username, st.form.password).Accepted?)
    ensures r.effect.CallLogin? ==> r.state.error == "" && r.effect.user.status == Approved
    ensures !st.isLogin ==> !r.effect.CallLogin?
    ensures st.isLogin ==> !r.effect.CallSignup?
    ensures r.effect.CallSignup? ==>
      && r.state == AuthState(true, EmptyForm, "", CreatedMessage)
      && forall u :: u in users ==> u.username != r.effect.user.username
    ensures !st.isLogin && r.effect.NoEffect? ==> r.state.error == TakenMessage
    ensures !st.isLogin && Signup(users, st.form, freshId).Taken? ==>
      r.state == st.(error := TakenMessage, successMsg := "")
    ensures st.isLogin ==>
      match Login(users, st.form.username, st.form.password)
      case Accepted(u) => r.effect == CallLogin(u) && r.state.error == ""
      case Refused(m) => r.effect.NoEffect? && r.state.error == m
    ensures !st.isLogin ==>
      match Signup(users, st.form, freshId)
      case Created(u) => r.effect == CallSignup(u)
      case Taken => r.effect.NoEffect?
  {
    var cleared := st.(error := "", successMsg := "");
    if st.isLogin then
      match Login(users, st.form.username, st.form.password)
      case Refused(msg) => Submitted(cleared.(error := msg), NoEffect)
      case Accepted(u) => Submitted(cleared, CallLogin(u))
    else
      match Signup(users, st.form, freshId)
      case Taken => Submitted(cleared.(error := TakenMessage), NoEffect)
      case Created(u) => Submitted(AuthState(true, EmptyForm, "", CreatedMessage), CallSignup(u))
  }

  /** A signup with a fresh id, saved to a store whose ids and usernames are
      unique, keeps both unique: usernames are unique because signup is the
      only way accounts are created and it checks. */
  lemma SignupKeepsAccountsUnique(b: Blob, st: AuthState, freshId: string)
    requires UniqueKeys(GetUsers(b), UserId) && UniqueKeys(GetUsers(b), Username)
    requires forall u :: u in GetUsers(b) ==> u.id != freshId
    requires HandleSubmit(st, GetUsers(b), freshId).effect.CallSignup?
    ensures UniqueKeys(GetUsers(SaveUser(b, HandleSubmit(st, GetUsers(b), freshId).effect.user)), UserId)
    ensures UniqueKeys(GetUsers(SaveUser(b, HandleSubmit(st, GetUsers(b), freshId).effect.user)), Username)
  {
    var us := GetUsers(b);
    var nu := HandleSubmit(st, us, freshId).effect.user;
    assert nu.id == freshId;
    SaveUserKeepsIdsUnique(b, nu);
    var r := GetUsers(SaveUser(b, nu));
    assert r == us + [nu];
    forall i, j | 0 <= i < j < |r|
      ensures Username(r[i]) != Username(r[j])
    {
      if j == |us| {
        assert r[i] in us;
      }
    }
  }
}

=== FILE: dashboard.dfy ===
/** The dashboard of `components/Dashboard.tsx`: for an administrator the
    account counters and the per-subject average chart, for a student the
    own average, the number of graded subjects and the academic record with
    its PASSED / FAILED marks. Averages are exact rationals here; the
    source's rounding for display is not modelled. */
module Dashboard {
  import opened Wrappers
  import opened Lists
  import opened Types
  import opened Queries

  /** The score at and above which a subject is passed. */
  const PassingScore := 75

  /** The `reduce` that adds up the scores. */
  function Sum(grades: seq<Grade>): int {
    if |grades| == 0 then 0 else grades[0].score + Sum(grades[1..])
  }

  /** Multiplying by a successor adds one more factor. */
  lemma MulSucc(a: int, m: nat)
    ensures a * (m + 1) == a * m + a
  {
  }

  /** Scores bounded by `lo` and `hi` add up to between `lo` and `hi` times
      their number. */
  lemma {:induction false} SumBetween(grades: seq<Grade>, lo: int, hi: int)
    requires forall g :: g in grades ==> lo <= g.score <= hi
    ensures lo * |grades| <= Sum(grades) <= hi * |grades|
    decreases |grades|
  {
    if |grades| > 0 {
      var m := |grades| - 1;
      var rest := grades[1..];
      forall g | g in rest
        ensures lo <= g.score <= hi
      {
        assert g in grades;
      }
      SumBetween(rest, lo, hi);
      assert grades[0] in grades;
      assert Sum(grades) == grades[0].score + Sum(rest);
      MulSucc(lo, m);
      MulSucc(hi, m);
    }
  }

  /** The mean score, 0 for no grades. */
  function Average(grades: seq<Grade>): (r: real)
    ensures |grades| == 0 ==> r == 0.0
    ensures |grades| > 0 ==> r * |grades| as real == Sum(grades) as real
  {
    if |grades| == 0 then 0.0 else Sum(grades) as real / |grades| as real
  }

  /** The mean of scores bounded by `lo` and `hi` is bounded by them too. */
  lemma AverageBetween(grades: seq<Grade>, lo: int, hi: int)
    requires |grades| > 0
    requires forall g :: g in grades ==> lo <= g.score <= hi
    ensures lo as real <= Average(grades) <= hi as real
  {
    SumBetween(grades, lo, hi);
    var n := |grades| as real;
    var a := Average(grades);
    assert a * n == Sum(grades) as real;
    assert (lo as real) * n <= a * n <= (hi as real) * n;
  }

  /** Scores in the documented range give an average in that range, and so
      inside the chart's fixed 0-100 axis. */
  lemma AverageInRange(grades: seq<Grade>)
    requires forall g :: g in grades ==> ScoreInRange(g.score)
    ensures 0.0 <= Average(grades) <= 100.0
  {
    if |grades| > 0 {
      AverageBetween(grades, 0, 100);
    }
  }

  /** The administrator's four counters. */
  datatype Counts = Counts(students: nat, pending: nat, approved: nat, subjects: nat)

  /** Students are the accounts with the student role; pending and approved
      are counted among students only, and never overlap. */
  function AdminCounts(users: seq<User>, subjects: seq<Subject>): (r: Counts)
    ensures r.students == |Students(users)| <= |users|
    ensures r.pending == |WithStatus(Students(users), Pending)|
    ensures r.approved == |WithStatus(Students(users), Approved)|
    ensures r.pending + r.approved <= r.students
    ensures r.subjects == |subjects|
  {
    var students := Students(users);
    FilterDisjointLength(students, HasStatus(Pending), HasStatus(Approved));
    Counts(|students|, |WithStatus(students, Pending)|, |WithStatus(students, Approved)|, |subjects|)
  }

  /** One bar of the chart. */
  datatype Bar = Bar(name: string, average: real)

  /** `subjectPerformance`: one bar per subject, in subject order, labelled
      with the subject's code, showing the average of that subject's grades. */
  function SubjectPerformance(subjects: seq<Subject>, grades: seq<Grade>): (r: seq<Bar>)
    ensures |r| == |subjects|
    ensures forall i :: 0 <= i < |r| ==> r[i].name == subjects[i].code
    ensures forall i :: 0 <= i < |r| ==> r[i].average == Average(GradesOfSubject(grades, subjects[i].id))
  {
    seq(|subjects|, i requires 0 <= i < |subjects| =>
      Bar(subjects[i].code, Average(GradesOfSubject(grades, subjects[i].id))))
  }

  /** With scores in range every bar fits the axis, and a subject nobody is
      graded in shows 0. */
  lemma BarsFitAxis(subjects: seq<Subject>, grades: seq<Grade>)
    requires forall g :: g in grades ==> ScoreInRange(g.score)
    ensures forall b :: b in SubjectPerformance(subjects, grades) ==> 0.0 <= b.average <= 100.0
    ensures forall i :: 0 <= i < |subjects| && (forall g :: g in grades ==> g.subjectId != subjects[i].id) ==>
      SubjectPerformance(subjects, grades)[i].average == 0.0
  {
    var bars := SubjectPerformance(subjects, grades);
    forall b | b in bars
      ensures 0.0 <= b.average <= 100.0
    {
      var i :| 0 <= i < |bars| && bars[i] == b;
      AverageInRange(GradesOfSubject(grades, subjects[i].id));
    }
    forall i | 0 <= i < |subjects| && (forall g :: g in grades ==> g.subjectId != subjects[i].id)
      ensures bars[i].average == 0.0
    {
      var own := GradesOfSubject(grades, subjects[i].id);
      assert forall g :: g in own ==> false;
    }
  }

  /** The status cell of a record row. */
  datatype Mark = NoGrade | Passed(score: int) | Failed(score: int)

  /** PASSED at 75 and above, FAILED below, NO GRADE without a grade. */
  function MarkOf(grade: Option<Grade>): (r: Mark)
    ensures r == NoGrade <==> grade.None?
    ensures r.Passed? ==> grade.Some? && r.score == grade.value.score && r.score >= PassingScore
    ensures r.Failed? ==> grade.Some? && r.score == grade.value.score && r.score < PassingScore
    ensures grade.Some? ==> (r.Passed? <==> grade.value.score >= PassingScore)
  {
    match grade
    case None => NoGrade
    case Some(g) => if g.score >= PassingScore then Passed(g.score) else Failed(g.score)
  }

  /** A row of the academic record. */
  datatype RecordRow = RecordRow(code: string, name: string, credits: int, mark: Mark)

  /** The academic record: every subject of the curriculum in subject order,
      with the mark of the first of the student's grades for it. */
  function Record(subjects: seq<Subject>, myGrades: seq<Grade>): (r: seq<RecordRow>)
    ensures |r| == |subjects|
    ensures forall i :: 0 <= i < |r| ==>
      r[i].code == subjects[i].code && r[i].name == subjects[i].name && r[i].credits == subjects[i].credits
    ensures forall i :: 0 <= i < |r| ==>
      (r[i].mark == NoGrade <==> forall g :: g in myGrades ==> g.subjectId != subjects[i].id)
    ensures forall i :: 0 <= i < |r| && !r[i].mark.NoGrade? ==>
      exists g :: g in myGrades && g.subjectId == subjects[i].id && g.score == r[i].mark.score
  {
    seq(|subjects|, i requires 0 <= i < |subjects| =>
      RecordRow(subjects[i].code, subjects[i].name, subjects[i].credits,
        MarkOf(Find(myGrades, KeyIs(GradeSubject, subjects[i].id)))))
  }

  /** The record shows for each subject exactly the grade the store's
      (student, subject) lookup finds: filtering the student's grades first
      keeps their order. */
  lemma RecordShowsStoredGrade(subjects: seq<Subject>, grades: seq<Grade>, me: User, i: nat)
    requires i < |subjects|
    ensures Record(subjects, GradesOfStudent(grades, me.id))[i].mark
      == MarkOf(GradeFor(grades, me.id, subjects[i].id))
  {
    var sid := subjects[i].id;
    FindAfterFilter(grades, KeyIs(GradeStudent, me.id), KeyIs(GradeSubject, sid), IsPair(me.id, sid));
  }

  /** A student who passed every grade has an average at or above the
      passing score. */
  lemma AllPassedAveragesAbove(grades: seq<Grade>, me: User)
    requires |GradesOfStudent(grades, me.id)| > 0
    requires forall g :: g in grades && g.studentId == me.id ==> PassingScore <= g.score <= 100
    ensures PassingScore as real <= Average(GradesOfStudent(grades, me.id)) <= 100.0
  {
    AverageBetween(GradesOfStudent(grades, me.id), PassingScore, 100);
  }

  /** What the dashboard shows. */
  datatype View =
    | AdminView(counts: Counts, bars: seq<Bar>)
    | StudentView(average: real, enrolled: nat, record: seq<RecordRow>)

  /** The student view for accounts with the student role, the
      administrator view otherwise. The student view is built from the
      current account's grades only. */
  function Render(users: seq<User>, grades: seq<Grade>, subjects: seq<Subject>, me: User): (r: View)
    ensures r.StudentView? <==> me.role == Student
    ensures r.StudentView? ==>
      && r.enrolled == |GradesOfStudent(grades, me.id)|
      && r.average == Average(GradesOfStudent(grades, me.id))
      && r.record == Record(subjects, GradesOfStudent(grades, me.id))
    ensures r.AdminView? ==>
      r.counts == AdminCounts(users, subjects) && r.bars == SubjectPerformance(subjects, grades)
  {
    if me.role == Student then
      var mine := GradesOfStudent(grades, me.id);
      StudentView(Average(mine), |mine|, Record(subjects, mine))
    else
      AdminView(AdminCounts(users, subjects), SubjectPerformance(subjects, grades))
  }

  /** The student view depends on nobody else's grades. */
  lemma StudentViewIgnoresOthers(users: seq<User>, grades: seq<Grade>, other: Grade, subjects: seq<Subject>, me: User)
    requires me.role == Student && other.studentId != me.id
    ensures Render(users, grades + [other], subjects, me) == Render(users, grades, subjects, me)
  {
    FilterAppend(grades, [other], KeyIs(GradeStudent, me.id));
    assert Filter([other], KeyIs(GradeStudent, me.id)) == [];
    assert GradesOfStudent(grades + [other], me.id) == GradesOfStudent(grades, me.id);
  }
}

=== FILE: directory.dfy ===
/** The student directory of `components/StudentDirectory.tsx`: a
    case-insensitive search over full name and e-mail, two modes (the
    approvals queue and the directory of everyone else), and the row
    actions of the approvals queue. */
module Directory {
  import opened Wrappers
  import opened Lists
  import opened Types
  import opened Queries
  import opened App

  /** `toLowerCase` on one character, for ASCII letters only. */
  function LowerChar(c: char): char {
    if 'A' <= c <= 'Z' then (c as int + 32) as char else c
  }

  predicate IsUpper(c: char) {
    'A' <= c <= 'Z'
  }

  /** `toLowerCase`: same length, every character lowered, no upper-case
      letter left. */
  function Lower(s: string): (r: string)
    ensures |r| == |s|
    ensures forall i :: 0 <= i < |s| ==> r[i] == LowerChar(s[i])
    ensures forall i :: 0 <= i < |r| ==> !IsUpper(r[i])
  {
    seq(|s|, i requires 0 <= i < |s| => LowerChar(s[i]))
  }

  /** Lowering twice is lowering once. */
  lemma LowerIdempotent(s: string)
    ensures Lower(Lower(s)) == Lower(s)
  {
  }

  /** `String.prototype.includes`, computed by sliding over `hay`. */
  function Contains(hay: string, needle: string): bool
    decreases |hay|
  {
    needle <= hay || (|hay| > 0 && Contains(hay[1..], needle))
  }

  /** `needle` occurs in `hay` starting at position `i`. */
  predicate OccursAt(hay: string, needle: string, i: int) {
    0 <= i && i + |needle| <= |hay| && hay[i..i + |needle|] == needle
  }

  /** A slice of the tail is the slice of the whole shifted by one. */
  lemma SliceOfTail(hay: string, j: nat, n: nat)
    requires 1 + j + n <= |hay|
    ensures hay[1..][j..j + n] == hay[j + 1..j + 1 + n]
  {
  }

  /** `Contains` holds exactly when `needle` occurs at some position of
      `hay`; in particular the empty string occurs everywhere. */
  lemma {:induction false} ContainsIffOccurs(hay: string, needle: string)
    ensures Contains(hay, needle) <==> exists i :: OccursAt(hay, needle, i)
    ensures Contains(hay, "")
    decreases |hay|
  {
    var n := |needle|;
    assert OccursAt(hay, needle, 0) ==> hay[..n] == needle;
    if needle <= hay {
      assert OccursAt(hay, needle, 0);
    } else if |hay| > 0 {
      ContainsIffOccurs(hay[1..], needle);
      forall i | 0 < i && OccursAt(hay, needle, i)
        ensures OccursAt(hay[1..], needle, i - 1)
      {
        SliceOfTail(hay, i - 1, n);
      }
      if Contains(hay[1..], needle) {
        var j :| OccursAt(hay[1..], needle, j);
        SliceOfTail(hay, j, n);
        assert OccursAt(hay, needle, j + 1);
      }
    }
  }

  /** The search: the lowered term occurs in the lowered full name or the
      lowered e-mail. */
  function Matches(term: string): User -> bool {
    (u: User) => Contains(Lower(u.fullName), Lower(term)) || Contains(Lower(u.email), Lower(term))
  }

  /** The row filter: in approvals mode only pending accounts, otherwise
      every account that is not pending; both narrowed by the search. */
  function Shown(term: string, approvals: bool): User -> bool {
    (u: User) => (if approvals then u.status == Pending else u.status != Pending) && Matches(term)(u)
  }

  /** `displayedStudents`. The list passed in is every account, the
      administrator's included. */
  function Displayed(students: seq<User>, term: string, approvals: bool): (r: seq<User>)
    ensures forall u :: u in r <==>
      (u in students && (approvals <==> u.status == Pending)
       && (Contains(Lower(u.fullName), Lower(term)) || Contains(Lower(u.email), Lower(term))))
    ensures Subseq(r, students)
  {
    var r := Filter(students, Shown(term, approvals));
    forall u
      ensures u in r <==> u in students && Shown(term, approvals)(u)
      ensures Shown(term, approvals)(u) <==> (approvals <==> u.status == Pending) && Matches(term)(u)
      ensures Matches(term)(u) == (Contains(Lower(u.fullName), Lower(term)) || Contains(Lower(u.email), Lower(term)))
    {
      if u in r {
        var i :| 0 <= i < |r| && r[i] == u;
        assert Shown(term, approvals)(r[i]);
      }
      if u in students && Shown(term, approvals)(u) {
        var i :| 0 <= i < |students| && students[i] == u;
      }
    }
    r
  }

  /** The search ignores case: a term and its lowered form show the same
      rows. */
  lemma SearchIgnoresCase(students: seq<User>, term: string, approvals: bool)
    ensures Displayed(students, term, approvals) == Displayed(students, Lower(term), approvals)
  {
    LowerIdempotent(term);
    forall u: User
      ensures Shown(term, approvals)(u) == Shown(Lower(term), approvals)(u)
    {
      assert Matches(term)(u) == Matches(Lower(term))(u);
    }
    FilterAgrees(students, Shown(term, approvals), Shown(Lower(term), approvals));
  }

  /** The two modes never show the same account, so together they show at
      most every account; with an empty search they show exactly every
      account between them. */
  lemma ModesSplitAccounts(students: seq<User>, term: string)
    ensures forall u :: !(u in Displayed(students, term, true) && u in Displayed(students, term, false))
    ensures |Displayed(students, term, true)| + |Displayed(students, term, false)| <= |students|
    ensures |Displayed(students, "", true)| + |Displayed(students, "", false)| == |students|
  {
    FilterDisjointLength(students, Shown(term, true), Shown(term, false));
    forall u: User
      ensures Shown("", false)(u) == !Shown("", true)(u)
    {
      assert Lower("") == "";
      ContainsIffOccurs(Lower(u.fullName), "");
      assert Contains(Lower(u.fullName), Lower(""));
      assert Matches("")(u);
    }
    FilterComplementLength(students, Shown("", true), Shown("", false));
  }

  /** The buttons of a row. */
  datatype RowAction = Approve | Reject | EditRow | DeleteRow

  /** What a button asks of the application. */
  datatype Request = UpdateStatus(id: string, status: AccountStatus) | OpenEditor(user: User) | DeleteAccount(id: string)

  /** The approvals queue shows Approve and Reject, the directory shows Edit
      and Delete; a button not shown does nothing. */
  function Press(student: User, action: RowAction, approvals: bool): (r: Option<Request>)
    ensures r.Some? <==> (approvals <==> action.Approve? || action.Reject?)
    ensures r.Some? && r.value.UpdateStatus? ==> approvals && r.value.id == student.id
    ensures r == Some(UpdateStatus(student.id, Approved)) <==> approvals && action == Approve
    ensures r == Some(UpdateStatus(student.id, Rejected)) <==> approvals && action == Reject
    ensures r.Some? && !r.value.UpdateStatus? ==> !approvals
    ensures !approvals && action == EditRow ==> r == Some(OpenEditor(student))
    ensures !approvals && action == DeleteRow ==> r == Some(DeleteAccount(student.id))
  {
    match action
    case Approve => if approvals then Some(UpdateStatus(student.id, Approved)) else None
    case Reject => if approvals then Some(UpdateStatus(student.id, Rejected)) else None
    case EditRow => if approvals then None else Some(OpenEditor(student))
    case DeleteRow => if approvals then None else Some(DeleteAccount(student.id))
  }

  /** Setting an account to approved moves it from the queue to the
      directory under any search. */
  lemma ApprovedLeavesQueue(users: seq<User>, u: User, term: string)
    requires u in users
    ensures u.(status := Approved) in Displayed(SetStatus(users, u.id, Approved), term, false)
      || !(Contains(Lower(u.fullName), Lower(term)) || Contains(Lower(u.email), Lower(term)))
    ensures forall v :: v in Displayed(SetStatus(users, u.id, Approved), term, true) ==> v.id != u.id
  {
    var after := SetStatus(users, u.id, Approved);
    var i :| 0 <= i < |users| && users[i] == u;
    assert after[i] == u.(status := Approved);
    forall v | v in Displayed(after, term, true)
      ensures v.id != u.id
    {
      var j :| 0 <= j < |after| && after[j] == v;
    }
  }

  /** Approving a row of the queue, with storage working, takes the account
      out of the queue and into the directory under the same search. */
  lemma ApproveMovesRow(s: Session, u: User, term: string)
    requires InSync(s) && UniqueKeys(s.view.users, UserId)
    requires u in Displayed(s.view.users, term, true)
    ensures var req := Press(u, Approve, true).value;
      var r := HandleUpdateStatus(s, req.id, req.status, AllOk);
      && u.(status := Approved) in Displayed(r.view.users, term, false)
      && forall v :: v in Displayed(r.view.users, term, true) ==> v.id != u.id
  {
    assert FindUser(s.view.users, u.id).Some?;
    StatusGuessIsExact(s, u.id, Approved);
    ApprovedLeavesQueue(s.view.users, u, term);
  }
}

=== FILE: gradebook.dfy ===
/** The grade-entry rules of `components/Gradebook.tsx`: which students can
    be selected, how a typed score becomes a grade payload, how the subject
    form is submitted, and which grades the AI analysis is given. Generated
    ids (`Date.now()`, `Math.random()`) are parameters. */
module Gradebook {
  import opened Wrappers
  import opened Lists
  import opened Types
  import opened Queries
  import opened Storage
  import opened App

  /** The semester every payload carries. */
  const Semester := "Fall 2024"

  /** The initial selection: the first active student's id, or the empty
      string when there is none. */
  function InitialSelection(active: seq<User>): (r: string)
    ensures |active| > 0 ==> r == active[0].id
    ensures |active| == 0 ==> r == ""
  {
    if |active| > 0 then active[0].id else ""
  }

  /** The selection-fallback effect: a selection that names no active
      student moves to the first active student, if there is one. */
  function FallbackSelection(active: seq<User>, selected: string): (r: string)
    ensures (exists u :: u in active && u.id == selected) ==> r == selected
    ensures (forall u :: u in active ==> u.id != selected) && |active| > 0 ==> r == active[0].id
    ensures |active| == 0 ==> r == selected
    ensures |active| > 0 ==> exists u :: u in active && u.id == r
  {
    if FindUser(active, selected).None? && |active| > 0 then active[0].id else selected
  }

  /** The effect settles after one step: applying it again changes nothing. */
  lemma FallbackSettles(active: seq<User>, selected: string)
    ensures FallbackSelection(active, FallbackSelection(active, selected)) == FallbackSelection(active, selected)
  {
  }

  /** `parseInt` then clamping: a non-number becomes 0, anything else is
      clamped into [0, 100]. The parse itself is left abstract: `parsed` is
      None where `parseInt` yields NaN. */
  function ClampScore(parsed: Option<int>): (r: int)
    ensures ScoreInRange(r)
    ensures parsed.None? ==> r == 0
    ensures parsed.Some? && ScoreInRange(parsed.value) ==> r == parsed.value
    ensures parsed.Some? && parsed.value < 0 ==> r == 0
    ensures parsed.Some? && parsed.value > 100 ==> r == 100
  {
    match parsed
    case None => 0
    case Some(n) => if n > 100 then 100 else if n < 0 then 0 else n
  }

  /** `handleScoreChange`: nothing without a selected student; otherwise a
      payload for (selected student, subject) with the clamped score, the
      id of that pair's existing grade, or `freshId` for a new pair. */
  function ScorePayload(selected: string, grades: seq<Grade>, subjectId: string, parsed: Option<int>, freshId: string): (r: Option<Grade>)
    ensures r.None? <==> selected == ""
    ensures r.Some? ==>
      && r.value.studentId == selected && r.value.subjectId == subjectId
      && r.value.semester == Semester && r.value.score == ClampScore(parsed)
    ensures r.Some? && GradeFor(grades, selected, subjectId).Some? ==>
      r.value.id == GradeFor(grades, selected, subjectId).value.id
    ensures r.Some? && GradeFor(grades, selected, subjectId).None? ==> r.value.id == freshId
  {
    if selected == "" then None
    else
      var id := match GradeFor(grades, selected, subjectId)
        case Some(existing) => existing.id
        case None => freshId;
      Some(Grade(id, selected, subjectId, ClampScore(parsed), Semester))
  }

  /** A payload built this way meets the store's id discipline, provided
      grade ids are unique and the fresh id is unused. */
  lemma PayloadIdFits(grades: seq<Grade>, selected: string, subjectId: string, parsed: Option<int>, freshId: string)
    requires UniqueKeys(grades, GradeId)
    requires forall h :: h in grades ==> h.id != freshId
    requires selected != ""
    ensures IdFits(grades, ScorePayload(selected, grades, subjectId, parsed, freshId).value)
  {
    var g := ScorePayload(selected, grades, subjectId, parsed, freshId).value;
    match GradeFor(grades, selected, subjectId)
    case Some(e) =>
      forall h | h in grades && h.id == g.id
        ensures SamePair(h, g)
      {
        var i :| 0 <= i < |grades| && grades[i] == h;
        var k :| 0 <= k < |grades| && grades[k] == e;
        assert GradeId(grades[i]) == GradeId(grades[k]);
      }
    case None =>
  }

  /** Entering a score end to end: on an in-sync session whose grade table
      has unique ids and pairs, the grade change keeps the snapshot in sync,
      keeps both invariants, shows exactly the optimistic guess, and records
      the clamped score for the pair. */
  lemma ScoreEntryKeepsIntegrity(s: Session, selected: string, subjectId: string, parsed: Option<int>, freshId: string)
    requires InSync(s)
    requires PairUnique(s.view.grades) && UniqueKeys(s.view.grades, GradeId)
    requires forall h :: h in s.view.grades ==> h.id != freshId
    requires selected != ""
    ensures var g := ScorePayload(selected, s.view.grades, subjectId, parsed, freshId).value;
      var r := HandleGradeChange(s, g, AllOk);
      && InSync(r)
      && PairUnique(r.view.grades) && UniqueKeys(r.view.grades, GradeId)
      && r.view.grades == OptimisticGrade(s.view.grades, g)
      && GradeFor(r.view.grades, selected, subjectId).Some?
      && GradeFor(r.view.grades, selected, subjectId).value.score == ClampScore(parsed)
  {
    var gs := s.view.grades;
    var g := ScorePayload(selected, gs, subjectId, parsed, freshId).value;
    PayloadIdFits(gs, selected, subjectId, parsed, freshId);
    UpsertGradeKeepsIntegrity(gs, g);
    GradeGuessIsExact(s, g);
  }

  /** The subject form. */
  datatype SubjectForm = SubjectForm(id: string, name: string, code: string, credits: int)

  const EmptySubjectForm := SubjectForm("", "", "", 3)

  datatype SubjectSubmission = SubjectSubmission(subject: Subject, form: SubjectForm, editing: bool)

  /** `handleSubjectSubmit`: the form's id when editing, `freshId` (standing
      for `sub-${Date.now()}`) otherwise; the form is reset afterwards. */
  function HandleSubjectSubmit(form: SubjectForm, editing: bool, freshId: string): (r: SubjectSubmission)
    ensures editing ==> r.subject.id == form.id
    ensures !editing ==> r.subject.id == freshId
    ensures r.subject.name == form.name && r.subject.code == form.code && r.subject.credits == form.credits
    ensures r.form == EmptySubjectForm && !r.editing
  {
    SubjectSubmission(
      Subject(if editing then form.id else freshId, form.name, form.code, form.credits),
      EmptySubjectForm, false)
  }

  /** Saving a submitted subject edits in place when editing an existing
      subject, and adds exactly one subject when creating with a fresh id. */
  lemma SubjectSubmitEffect(b: Blob, form: SubjectForm, editing: bool, freshId: string)
    requires editing ==> exists t :: t in GetSubjects(b) && t.id == form.id
    requires !editing ==> forall t :: t in GetSubjects(b) ==> t.id != freshId
    ensures var sub := HandleSubjectSubmit(form, editing, freshId).subject;
      |GetSubjects(SaveSubject(b, sub))| == |GetSubjects(b)| + (if editing then 0 else 1)
  {
    var ss := GetSubjects(b);
    if editing {
      var t :| t in ss && t.id == form.id;
      var j :| 0 <= j < |ss| && ss[j] == t;
      assert ss[j].id == form.id;
    } else {
      forall j | 0 <= j < |ss|
        ensures ss[j].id != freshId
      {
        assert ss[j] in ss;
      }
    }
  }

  /** One run of the AI analysis. */
  datatype AnalysisRun = AnalysisRun(text: string, store: Blob)

  /** `handleAIAnalysis`: nothing when the selected id names no account;
      otherwise the generator (an opaque function here) is given that
      account, only that student's grades and all subjects, and its text is
      appended to the analysis log with timestamp `now`. */
  function HandleAIAnalysis(
    students: seq<User>, grades: seq<Grade>, subjects: seq<Subject>, selected: string,
    store: Blob, generate: (User, seq<Grade>, seq<Subject>) -> string, now: string): (r: Option<AnalysisRun>)
    ensures r.None? <==> forall u :: u in students ==> u.id != selected
    ensures r.Some? ==>
      r.value.text == generate(FindUser(students, selected).value, GradesOfStudent(grades, selected), subjects)
    ensures r.Some? ==> r.value.store == SaveAnalysis(store, AnalysisResult(selected, r.value.text, now))
    ensures r.Some? ==> GetAnalysis(r.value.store, selected) == Some(AnalysisResult(selected, r.value.text, now))
    ensures r.Some? ==>
      && r.value.store.users == store.users && r.value.store.subjects == store.subjects
      && r.value.store.grades == store.grades
  {
    match FindUser(students, selected)
    case None => None
    case Some(student) =>
      var text := generate(student, GradesOfStudent(grades, selected), subjects);
      var result := AnalysisResult(selected, text, now);
      LatestAnalysisWins(store, result, selected);
      Some(AnalysisRun(text, SaveAnalysis(store, result)))
  }
}

=== FILE: layout.dfy ===
/** The navigation menu of `components/Layout.tsx`: a fixed list of pages,
    each visible to some roles, filtered by the signed-in account's role.
    Labels and icons are presentation and are left out; a page is named by
    its id. */
module Layout {
  import opened Lists
  import opened Types

  /** The pages of the menu, one per id. */
  datatype Page = DashboardPage | StudentsPage | ApprovalsPage | GradesPage | MyGradesPage

  /** A menu entry and the roles it is shown to. */
  datatype MenuItem = MenuItem(page: Page, roles: seq<UserRole>)

  const MenuItems: seq<MenuItem> := [
    MenuItem(DashboardPage, [Admin, Student]),
    MenuItem(StudentsPage, [Admin]),
    MenuItem(ApprovalsPage, [Admin]),
    MenuItem(GradesPage, [Admin]),
    MenuItem(MyGradesPage, [Student])
  ]

  /** The predicate `item.roles.includes(role)`. */
  function VisibleTo(role: UserRole): MenuItem -> bool {
    (item: MenuItem) => role in item.roles
  }

  /** `filteredItems`: the menu filtered by `role`; it agrees with the
      entry-by-entry computation. */
  function FilteredItems(role: UserRole): (r: seq<MenuItem>)
    ensures r == VisibleFrom(role, 0)
  {
    FilterFrom(role, 0);
    assert MenuItems[0..] == MenuItems;
    Filter(MenuItems, VisibleTo(role))
  }

  /** An entry is shown exactly when it is on the menu and its roles include
      the account's role. */
  lemma ShownIffRoleListed(role: UserRole)
    ensures forall m :: m in FilteredItems(role) <==> m in MenuItems && role in m.roles
  {
    forall m
      ensures m in Filter(MenuItems, VisibleTo(role)) <==> m in MenuItems && role in m.roles
    {
      FilterMembership(MenuItems, VisibleTo(role), m);
    }
  }

  /** Filtering the tail of the menu from position `k` on: one entry is
      looked at, the rest is the tail from `k + 1`. */
  lemma FilterTail(role: UserRole, k: nat)
    requires k < |MenuItems|
    ensures Filter(MenuItems[k..], VisibleTo(role))
      == (if role in MenuItems[k].roles then [MenuItems[k]] else []) + Filter(MenuItems[k + 1..], VisibleTo(role))
  {
    assert MenuItems[k..][1..] == MenuItems[k + 1..];
  }

  /** The entries from position `k` on that `role` may see, computed
      entry by entry. */
  function VisibleFrom(role: UserRole, k: nat): seq<MenuItem>
    decreases |MenuItems| - k
  {
    if k >= |MenuItems| then []
    else (if role in MenuItems[k].roles then [MenuItems[k]] else []) + VisibleFrom(role, k + 1)
  }

  /** The filter over the menu's tail from `k` agrees with the entry-by-entry
      computation. */
  lemma {:induction false} FilterFrom(role: UserRole, k: nat)
    requires k <= |MenuItems|
    ensures Filter(MenuItems[k..], VisibleTo(role)) == VisibleFrom(role, k)
    decreases |MenuItems| - k
  {
    if k < |MenuItems| {
      FilterTail(role, k);
      FilterFrom(role, k + 1);
    }
  }

  /** The entries an administrator may see, computed. */
  lemma AdminVisible()
    ensures VisibleFrom(Admin, 0) == [MenuItems[0], MenuItems[1], MenuItems[2], MenuItems[3]]
  {
    var m := MenuItems;
    assert VisibleFrom(Admin, 3) == [m[3]];
    assert VisibleFrom(Admin, 1) == [m[1], m[2], m[3]];
  }

  /** The entries a student may see, computed. */
  lemma StudentVisible()
    ensures VisibleFrom(Student, 0) == [MenuItems[0], MenuItems[4]]
  {
    var m := MenuItems;
    assert VisibleFrom(Student, 3) == [m[4]];
    assert VisibleFrom(Student, 1) == [m[4]];
  }

  /** An administrator sees the dashboard, the directory, the approvals
      queue and the gradebook; a student sees the dashboard and the own
      grades; both in menu order. */
  lemma MenuPerRole(role: UserRole)
    ensures role == Admin ==> FilteredItems(role) == [MenuItems[0], MenuItems[1], MenuItems[2], MenuItems[3]]
    ensures role == Student ==> FilteredItems(role) == [MenuItems[0], MenuItems[4]]
    ensures MenuItems[0].page == DashboardPage && MenuItems[1].page == StudentsPage
    ensures MenuItems[2].page == ApprovalsPage && MenuItems[3].page == GradesPage
    ensures MenuItems[4].page == MyGradesPage
  {
    AdminVisible();
    StudentVisible();
  }

  /** The dashboard is the only entry listing both roles. */
  lemma OnlyDashboardListsBoth(m: MenuItem)
    requires m in MenuItems && Admin in m.roles && Student in m.roles
    ensures m == MenuItems[0] && m.page == DashboardPage
  {
    var i :| 0 <= i < |MenuItems| && MenuItems[i] == m;
    assert i == 0;
  }

  /** Every role sees the dashboard, and no entry other than the dashboard
      is shown to two different roles. */
  lemma DashboardIsShared(role: UserRole, other: UserRole)
    ensures MenuItems[0] in FilteredItems(role) && MenuItems[0].page == DashboardPage
    ensures role != other ==>
      forall m :: m in FilteredItems(role) && m in FilteredItems(other) ==> m.page == DashboardPage
  {
    ShownIffRoleListed(role);
    ShownIffRoleListed(other);
    assert role in MenuItems[0].roles;
    forall m | role != other && m in FilteredItems(role) && m in FilteredItems(other)
      ensures m.page == DashboardPage
    {
      OnlyDashboardListsBoth(m);
    }
  }
}

=== FILE: lists.dfy ===
/** Generic sequence operations that stand for the JavaScript array methods the
    application uses (`findIndex`, `find`, `filter`, index assignment, `push`,
    `map`), with their meaning stated once and reused by every module. */
module Lists {
  import opened Wrappers

  /** The predicate "the key of an element is `k`". Naming it (instead of
      writing a lambda at each use) makes every use denote the same value. */
  function KeyIs<T>(key: T -> string, k: string): T -> bool {
    y => key(y) == k
  }

  /** The predicate "the key of an element is not `k`". */
  function KeyIsNot<T>(key: T -> string, k: string): T -> bool {
    y => key(y) != k
  }

  /** `Array.prototype.findIndex`: the first position whose element satisfies
      `p`, or None where JavaScript returns -1. */
  function FirstIndex<T>(s: seq<T>, p: T -> bool): (r: Option<nat>)
    ensures r.None? <==> forall i :: 0 <= i < |s| ==> !p(s[i])
    ensures r.Some? ==> r.value < |s| && p(s[r.value])
    ensures r.Some? ==> forall j :: 0 <= j < r.value ==> !p(s[j])
  {
    if |s| == 0 then None
    else if p(s[0]) then Some(0)
    else match FirstIndex(s[1..], p)
      case None => None
      case Some(i) => Some(i + 1)
  }

  /** A position that satisfies `p` with nothing earlier satisfying it is the
      one `FirstIndex` reports. */
  lemma FirstIndexIs<T>(s: seq<T>, p: T -> bool, i: nat)
    requires i < |s| && p(s[i])
    requires forall j :: 0 <= j < i ==> !p(s[j])
    ensures FirstIndex(s, p) == Some(i)
  {
  }

  /** `Array.prototype.find`: the first element satisfying `p`. */
  function Find<T>(s: seq<T>, p: T -> bool): (r: Option<T>)
    ensures r.None? <==> forall i :: 0 <= i < |s| ==> !p(s[i])
    ensures r.Some? ==> r.value in s && p(r.value)
    ensures r.Some? ==> FirstIndex(s, p).Some? && r.value == s[FirstIndex(s, p).value]
  {
    match FirstIndex(s, p)
    case Some(i) => Some(s[i])
    case None => None
  }

  /** `r` is `s` with some elements left out and the rest in their original
      relative order. */
  ghost predicate Subseq<T>(r: seq<T>, s: seq<T>)
    decreases |s|
  {
    |r| == 0 || (|s| > 0 && ((r[0] == s[0] && Subseq(r[1..], s[1..])) || Subseq(r, s[1..])))
  }

  /** `Array.prototype.filter`: exactly the elements satisfying `p`, in their
      original order. */
  function Filter<T>(s: seq<T>, p: T -> bool): (r: seq<T>)
    ensures |r| <= |s|
    ensures forall i :: 0 <= i < |r| ==> r[i] in s && p(r[i])
    ensures forall i :: 0 <= i < |s| && p(s[i]) ==> s[i] in r
    ensures Subseq(r, s)
    ensures (forall i :: 0 <= i < |s| ==> p(s[i])) ==> r == s
  {
    if |s| == 0 then []
    else if p(s[0]) then [s[0]] + Filter(s[1..], p)
    else Filter(s[1..], p)
  }

  /** Membership in a filtered list: on the list and satisfying `p`. */
  lemma FilterMembership<T>(s: seq<T>, p: T -> bool, x: T)
    ensures x in Filter(s, p) <==> x in s && p(x)
  {
    var r := Filter(s, p);
    if x in r {
      var i :| 0 <= i < |r| && r[i] == x;
    }
    if x in s && p(x) {
      var i :| 0 <= i < |s| && s[i] == x;
    }
  }

  /** `filter` keeps every copy of a satisfying element and no copy of any
      other: the number of occurrences of `x` is its count in `s` when `x`
      satisfies `p`, and zero otherwise. */
  lemma {:induction false} FilterCountOf<T>(s: seq<T>, p: T -> bool, x: T)
    ensures multiset(Filter(s, p))[x] == if p(x) then multiset(s)[x] else 0
    decreases |s|
  {
    if |s| > 0 {
      var t := Filter(s[1..], p);
      FilterCountOf(s[1..], p, x);
      assert s == [s[0]] + s[1..];
      assert multiset(s) == multiset([s[0]]) + multiset(s[1..]);
      if p(s[0]) {
        assert Filter(s, p) == [s[0]] + t;
        assert multiset(Filter(s, p)) == multiset([s[0]]) + multiset(t);
      } else {
        assert Filter(s, p) == t;
      }
    }
  }

  /** Filtering distributes over concatenation. */
  lemma {:induction false} FilterAppend<T>(s: seq<T>, t: seq<T>, p: T -> bool)
    ensures Filter(s + t, p) == Filter(s, p) + Filter(t, p)
    decreases |s|
  {
    if |s| == 0 {
      assert s + t == t;
    } else {
      assert (s + t)[1..] == s[1..] + t;
      FilterAppend(s[1..], t, p);
    }
  }

  /** Two predicates that never hold together select at most `|s|` elements
      between them. */
  lemma {:induction false} FilterDisjointLength<T>(s: seq<T>, p: T -> bool, q: T -> bool)
    requires forall x :: !(p(x) && q(x))
    ensures |Filter(s, p)| + |Filter(s, q)| <= |s|
    decreases |s|
  {
    if |s| > 0 {
      FilterDisjointLength(s[1..], p, q);
    }
  }

  /** Two complementary predicates split `s` exactly: every element is selected
      by one of them. */
  lemma {:induction false} FilterComplementLength<T>(s: seq<T>, p: T -> bool, q: T -> bool)
    requires forall x :: q(x) == !p(x)
    ensures |Filter(s, p)| + |Filter(s, q)| == |s|
    decreases |s|
  {
    if |s| > 0 {
      FilterComplementLength(s[1..], p, q);
    }
  }

  /** Only what a predicate selects matters, not how it is written: two
      predicates that agree everywhere filter alike. */
  lemma {:induction false} FilterAgrees<T>(s: seq<T>, p: T -> bool, q: T -> bool)
    requires forall x :: p(x) == q(x)
    ensures Filter(s, p) == Filter(s, q)
    decreases |s|
  {
    if |s| > 0 {
      FilterAgrees(s[1..], p, q);
    }
  }

  /** `Find` looks at the head first, then at the rest. */
  lemma FindCons<T>(s: seq<T>, p: T -> bool)
    requires |s| > 0
    ensures Find(s, p) == if p(s[0]) then Some(s[0]) else Find(s[1..], p)
  {
  }

  /** Searching a filtered list for `q` finds what searching the whole list
      for "`p` and `q`" finds: filtering keeps the order, so the first match
      is the same element. */
  lemma {:induction false} FindAfterFilter<T>(s: seq<T>, p: T -> bool, q: T -> bool, pq: T -> bool)
    requires forall x :: pq(x) == (p(x) && q(x))
    ensures Find(Filter(s, p), q) == Find(s, pq)
    decreases |s|
  {
    if |s| > 0 {
      FindAfterFilter(s[1..], p, q, pq);
      FindCons(s, pq);
      if p(s[0]) {
        FindCons(Filter(s, p), q);
        assert Filter(s, p)[1..] == Filter(s[1..], p);
      }
    }
  }

  /** No two entries of `s` share a key. */
  ghost predicate UniqueKeys<T>(s: seq<T>, key: T -> string) {
    forall i, j :: 0 <= i < j < |s| ==> key(s[i]) != key(s[j])
  }

  /** The keys present in `s`. */
  ghost function Keys<T>(s: seq<T>, key: T -> string): set<string> {
    set i | 0 <= i < |s| :: key(s[i])
  }

  /** Unique keys stay unique in the tail, and the head's key is not used
      there. */
  lemma UniqueKeysTail<T>(s: seq<T>, key: T -> string)
    requires |s| > 0 && UniqueKeys(s, key)
    ensures UniqueKeys(s[1..], key)
    ensures forall y :: y in s[1..] ==> key(y) != key(s[0])
  {
    var rest := s[1..];
    forall i, j | 0 <= i < j < |rest|
      ensures key(rest[i]) != key(rest[j])
    {
      assert rest[i] == s[i + 1] && rest[j] == s[j + 1];
    }
    forall y | y in rest
      ensures key(y) != key(s[0])
    {
      var k :| 0 <= k < |rest| && rest[k] == y;
      assert s[k + 1] == y;
    }
  }

  /** Putting an element in front of a list with unique keys, none of them
      its own, keeps keys unique. */
  lemma UniqueKeysCons<T>(x: T, f: seq<T>, key: T -> string)
    requires UniqueKeys(f, key)
    requires forall y :: y in f ==> key(y) != key(x)
    ensures UniqueKeys([x] + f, key)
  {
    var r := [x] + f;
    forall i, j | 0 <= i < j < |r|
      ensures key(r[i]) != key(r[j])
    {
      assert r[j] == f[j - 1];
      if i == 0 {
        assert f[j - 1] in f;
      } else {
        assert r[i] == f[i - 1];
      }
    }
  }

  /** Filtering never introduces a repeated key. */
  lemma {:induction false} FilterKeepsUniqueKeys<T>(s: seq<T>, p: T -> bool, key: T -> string)
    requires UniqueKeys(s, key)
    ensures UniqueKeys(Filter(s, p), key)
    decreases |s|
  {
    if |s| > 0 {
      var rest := s[1..];
      UniqueKeysTail(s, key);
      FilterKeepsUniqueKeys(rest, p, key);
      if p(s[0]) {
        var f := Filter(rest, p);
        forall y | y in f
          ensures key(y) != key(s[0])
        {
          FilterMembership(rest, p, y);
        }
        UniqueKeysCons(s[0], f, key);
      }
    }
  }

  /** The "replace at the first matching index, otherwise push" step of
      `saveUser`, `saveSubject` and the optimistic subject save: `x` replaces
      the first entry with its key, or is appended. */
  function UpsertBy<T>(s: seq<T>, x: T, key: T -> string): (r: seq<T>)
    ensures match FirstIndex(s, KeyIs(key, key(x)))
      case Some(i) =>
        && |r| == |s| && r[i] == x
        && forall j :: 0 <= j < |s| && j != i ==> r[j] == s[j]
      case None =>
        && |r| == |s| + 1 && r[|s|] == x
        && forall j :: 0 <= j < |s| ==> r[j] == s[j]
    ensures FirstIndex(r, KeyIs(key, key(x))).Some?
    ensures r[FirstIndex(r, KeyIs(key, key(x))).value] == x
  {
    var k := KeyIs(key, key(x));
    match FirstIndex(s, k)
    case Some(i) =>
      var r := s[i := x];
      FirstIndexIs(r, k, i);
      r
    case None =>
      var r := s + [x];
      FirstIndexIs(r, k, |s|);
      r
  }

  /** Saving the same record a second time changes nothing. */
  lemma UpsertIdempotent<T>(s: seq<T>, x: T, key: T -> string)
    ensures UpsertBy(UpsertBy(s, x, key), x, key) == UpsertBy(s, x, key)
  {
    var r := UpsertBy(s, x, key);
    var i := FirstIndex(r, KeyIs(key, key(x))).value;
    assert r[i := x] == r;
  }

  /** Upserting keeps keys unique, and afterwards the record with `x`'s key is
      `x` itself: exactly one entry carries that key. */
  lemma {:induction false} UpsertKeepsUniqueKeys<T>(s: seq<T>, x: T, key: T -> string)
    requires UniqueKeys(s, key)
    ensures UniqueKeys(UpsertBy(s, x, key), key)
    ensures Keys(UpsertBy(s, x, key), key) == Keys(s, key) + {key(x)}
    ensures forall y :: y in UpsertBy(s, x, key) && key(y) == key(x) ==> y == x
  {
    var r := UpsertBy(s, x, key);
    var k := KeyIs(key, key(x));
    match FirstIndex(s, k)
    case Some(i) =>
      assert key(s[i]) == key(x);
      forall a, b | 0 <= a < b < |r|
        ensures key(r[a]) != key(r[b])
      {
        if a != i && b != i {
        } else if a == i {
          assert key(s[b]) != key(s[i]);
        } else {
          assert key(s[a]) != key(s[i]);
        }
      }
      assert Keys(r, key) == Keys(s, key) + {key(x)} by {
        forall c | c in Keys(s, key) + {key(x)}
          ensures c in Keys(r, key)
        {
          if c == key(x) {
            assert key(r[i]) == c;
          } else {
            var j :| 0 <= j < |s| && key(s[j]) == c;
            assert r[j] == s[j];
          }
        }
        forall c | c in Keys(r, key)
          ensures c in Keys(s, key) + {key(x)}
        {
          var j :| 0 <= j < |r| && key(r[j]) == c;
          if j != i {
            assert key(s[j]) == c;
          }
        }
      }
      forall y | y in r && key(y) == key(x)
        ensures y == x
      {
        var j :| 0 <= j < |r| && r[j] == y;
      }
    case None =>
      forall a, b | 0 <= a < b < |r|
        ensures key(r[a]) != key(r[b])
      {
        if b == |s| {
          assert !k(s[a]);
        }
      }
      assert Keys(r, key) == Keys(s, key) + {key(x)} by {
        forall c | c in Keys(s, key) + {key(x)}
          ensures c in Keys(r, key)
        {
          if c == key(x) {
            assert key(r[|s|]) == c;
          } else {
            var j :| 0 <= j < |s| && key(s[j]) == c;
            assert r[j] == s[j];
          }
        }
      }
      forall y | y in r && key(y) == key(x)
        ensures y == x
      {
        var j :| 0 <= j < |r| && r[j] == y;
      }
  }

  /** The optimistic replace-by-id `map`: every entry with `x`'s key becomes
      `x`, every other entry is untouched. */
  function ReplaceAllBy<T>(s: seq<T>, x: T, key: T -> string): (r: seq<T>)
    ensures |r| == |s|
    ensures forall i :: 0 <= i < |s| && key(s[i]) == key(x) ==> r[i] == x
    ensures forall i :: 0 <= i < |s| && key(s[i]) != key(x) ==> r[i] == s[i]
  {
    seq(|s|, i requires 0 <= i < |s| => if key(s[i]) == key(x) then x else s[i])
  }

  /** When keys are unique and `x`'s key is present, replacing every match is
      the same as the store's replace-first upsert; when it is absent the
      replacement is a no-op while the upsert appends. */
  lemma ReplaceAllAgreesWithUpsert<T>(s: seq<T>, x: T, key: T -> string)
    requires UniqueKeys(s, key)
    ensures key(x) in Keys(s, key) ==> ReplaceAllBy(s, x, key) == UpsertBy(s, x, key)
    ensures key(x) !in Keys(s, key) ==> ReplaceAllBy(s, x, key) == s
  {
    var k := KeyIs(key, key(x));
    if key(x) in Keys(s, key) {
      var j :| 0 <= j < |s| && key(s[j]) == key(x);
      assert k(s[j]);
    } else {
      forall i | 0 <= i < |s|
        ensures key(s[i]) != key(x)
      {
        assert key(s[i]) in Keys(s, key);
      }
    }
  }
}

=== FILE: queries.dfy ===
/** Selections over the collections that several screens share: the student
    accounts, grades of one student or one subject, the grade of a
    (student, subject) pair, and the integrity predicates of the grade table. */
module Queries {
  import opened Wrappers
  import opened Lists
  import opened Types

  function HasRole(role: UserRole): User -> bool {
    (u: User) => u.role == role
  }

  function HasStatus(status: AccountStatus): User -> bool {
    (u: User) => u.status == status
  }

  function IsPair(studentId: string, subjectId: string): Grade -> bool {
    (g: Grade) => g.studentId == studentId && g.subjectId == subjectId
  }

  /** The student accounts, in list order (the Gradebook's `activeStudents`
      and the Dashboard's `students`). */
  function Students(users: seq<User>): (r: seq<User>)
    ensures forall u :: u in r <==> u in users && u.role == Student
    ensures Subseq(r, users)
  {
    Filter(users, HasRole(Student))
  }

  /** The accounts in state `status`, in list order. */
  function WithStatus(users: seq<User>, status: AccountStatus): (r: seq<User>)
    ensures forall u :: u in r <==> u in users && u.status == status
    ensures Subseq(r, users)
  {
    Filter(users, HasStatus(status))
  }

  /** The grades of one student, in list order. */
  function GradesOfStudent(grades: seq<Grade>, studentId: string): (r: seq<Grade>)
    ensures forall g :: g in r <==> g in grades && g.studentId == studentId
    ensures Subseq(r, grades)
  {
    Filter(grades, KeyIs(GradeStudent, studentId))
  }

  /** The grades in one subject, in list order. */
  function GradesOfSubject(grades: seq<Grade>, subjectId: string): (r: seq<Grade>)
    ensures forall g :: g in r <==> g in grades && g.subjectId == subjectId
    ensures Subseq(r, grades)
  {
    Filter(grades, KeyIs(GradeSubject, subjectId))
  }

  /** The first grade recorded for the pair, as `find` on the grades returns it. */
  function GradeFor(grades: seq<Grade>, studentId: string, subjectId: string): (r: Option<Grade>)
    ensures r.None? <==> forall g :: g in grades ==> !(g.studentId == studentId && g.subjectId == subjectId)
    ensures r.Some? ==> r.value in grades && r.value.studentId == studentId && r.value.subjectId == subjectId
    ensures r.Some? ==> (FirstIndex(grades, IsPair(studentId, subjectId)).Some?
      && r.value == grades[FirstIndex(grades, IsPair(studentId, subjectId)).value])
  {
    Find(grades, IsPair(studentId, subjectId))
  }

  /** The first account with this id, as `find` by id returns it. */
  function FindUser(users: seq<User>, id: string): (r: Option<User>)
    ensures r.None? <==> forall u :: u in users ==> u.id != id
    ensures r.Some? ==> r.value in users && r.value.id == id
    ensures r.Some? ==> (FirstIndex(users, KeyIs(UserId, id)).Some?
      && r.value == users[FirstIndex(users, KeyIs(UserId, id)).value])
  {
    Find(users, KeyIs(UserId, id))
  }

  /** At most one grade per (student, subject) pair. */
  ghost predicate PairUnique(grades: seq<Grade>) {
    forall i, j :: 0 <= i < j < |grades| ==> !SamePair(grades[i], grades[j])
  }

  /** The id of `g` is either unused in `grades` or already belongs to the
      entry of `g`'s pair: what the Gradebook guarantees of every payload. */
  ghost predicate IdFits(grades: seq<Grade>, g: Grade) {
    forall h :: h in grades && h.id == g.id ==> SamePair(h, g)
  }
}

=== FILE: storage.dfy ===
/** The record store of `services/storage.ts`: four collections kept under
    separate keys of a persistent blob. The blob is modelled as a value with
    one optional sequence per key (None: the key is absent), serialisation is
    the identity, and every store method is a pure transformer of the blob. */
module Storage {
  import opened Wrappers
  import opened Lists
  import opened Types
  import opened Queries

  /** The persisted state: the `sms_users`, `sms_subjects`, `sms_grades` and
      `sms_analysis` keys. */
  datatype Blob = Blob(
    users: Option<seq<User>>,
    subjects: Option<seq<Subject>>,
    grades: Option<seq<Grade>>,
    analysis: Option<seq<AnalysisResult>>)

  /** Storage on a first visit: no key is present. */
  const Empty := Blob(None, None, None, None)

  /** The administrator account seeded on first run. */
  const InitialAdmin := User("admin-1", "admin", Some("admin"), "System Administrator", Admin, Approved, "admin@uep.edu.ph")

  /** The curriculum seeded on first run. */
  const DefaultSubjects := [
    Subject("sub-1", "Mathematics", "MATH101", 3),
    Subject("sub-2", "Physics", "PHYS101", 4),
    Subject("sub-3", "Introduction to Programming", "CS101", 3),
    Subject("sub-4", "History", "HIST101", 2)
  ]

  // ---------------------------------------------------------------------
  // Reading. A missing key reads as the empty collection.

  function GetUsers(b: Blob): (r: seq<User>)
    ensures b.users.None? ==> r == []
    ensures b.users.Some? ==> r == b.users.value
  {
    b.users.GetOr([])
  }

  function GetSubjects(b: Blob): (r: seq<Subject>)
    ensures b.subjects.None? ==> r == []
    ensures b.subjects.Some? ==> r == b.subjects.value
  {
    b.subjects.GetOr([])
  }

  function GetGrades(b: Blob): (r: seq<Grade>)
    ensures b.grades.None? ==> r == []
    ensures b.grades.Some? ==> r == b.grades.value
  {
    b.grades.GetOr([])
  }

  function GetAnalyses(b: Blob): (r: seq<AnalysisResult>)
    ensures b.analysis.None? ==> r == []
    ensures b.analysis.Some? ==> r == b.analysis.value
  {
    b.analysis.GetOr([])
  }

  // ---------------------------------------------------------------------
  // First-run seeding.

  /** Seeds every collection whose key is absent and leaves every present
      one alone; the analysis log is never seeded. */
  function Init(b: Blob): (r: Blob)
    ensures b.users.Some? ==> r.users == b.users
    ensures b.subjects.Some? ==> r.subjects == b.subjects
    ensures b.grades.Some? ==> r.grades == b.grades
    ensures b.users.None? ==> GetUsers(r) == [InitialAdmin]
    ensures b.subjects.None? ==> GetSubjects(r) == DefaultSubjects
    ensures b.grades.None? ==> r.grades == Some([])
    ensures r.users.Some? && r.subjects.Some? && r.grades.Some?
    ensures r.analysis == b.analysis
  {
    Blob(
      if b.users.None? then Some([InitialAdmin]) else b.users,
      if b.subjects.None? then Some(DefaultSubjects) else b.subjects,
      if b.grades.None? then Some([]) else b.grades,
      b.analysis)
  }

  /** Seeding a second time neither duplicates nor resets anything. */
  lemma InitIdempotent(b: Blob)
    ensures Init(Init(b)) == Init(b)
  {
  }

  /** On a first visit the account list is exactly the administrator. */
  lemma InitFirstRun()
    ensures GetUsers(Init(Empty)) == [InitialAdmin]
    ensures GetSubjects(Init(Empty)) == DefaultSubjects
    ensures GetGrades(Init(Empty)) == [] && GetAnalyses(Init(Empty)) == []
  {
  }

  // ---------------------------------------------------------------------
  // Accounts and subjects: upsert by id.

  /** `saveUser`: the account replaces the first one with its id, in place,
      or is appended; no other entry and no other collection changes. */
  function SaveUser(b: Blob, u: User): (r: Blob)
    ensures r.users.Some?
    ensures r.subjects == b.subjects && r.grades == b.grades && r.analysis == b.analysis
    ensures GetUsers(r) == UpsertBy(GetUsers(b), u, UserId)
    ensures FindUser(GetUsers(r), u.id) == Some(u)
    ensures |GetUsers(r)| >= |GetUsers(b)|
    ensures forall j :: 0 <= j < |GetUsers(b)| && GetUsers(b)[j].id != u.id ==> GetUsers(r)[j] == GetUsers(b)[j]
    ensures |GetUsers(r)| == |GetUsers(b)| <==> exists j :: 0 <= j < |GetUsers(b)| && GetUsers(b)[j].id == u.id
    ensures |GetUsers(r)| != |GetUsers(b)| ==> GetUsers(r) == GetUsers(b) + [u]
  {
    var us := GetUsers(b);
    var r := UpsertBy(us, u, UserId);
    assert FindUser(r, u.id) == Some(u);
    assert |r| == |us| <==> exists j :: 0 <= j < |us| && us[j].id == u.id by {
      if exists j :: 0 <= j < |us| && us[j].id == u.id {
        var j :| 0 <= j < |us| && us[j].id == u.id;
        assert KeyIs(UserId, u.id)(us[j]);
      }
    }
    b.(users := Some(r))
  }

  /** `saveSubject`: as `SaveUser`, for the subject list. */
  function SaveSubject(b: Blob, s: Subject): (r: Blob)
    ensures r.subjects.Some?
    ensures r.users == b.users && r.grades == b.grades && r.analysis == b.analysis
    ensures GetSubjects(r) == UpsertBy(GetSubjects(b), s, SubjectId)
    ensures Find(GetSubjects(r), KeyIs(SubjectId, s.id)) == Some(s)
    ensures |GetSubjects(r)| >= |GetSubjects(b)|
    ensures forall j :: 0 <= j < |GetSubjects(b)| && GetSubjects(b)[j].id != s.id ==> GetSubjects(r)[j] == GetSubjects(b)[j]
    ensures |GetSubjects(r)| == |GetSubjects(b)| <==> exists j :: 0 <= j < |GetSubjects(b)| && GetSubjects(b)[j].id == s.id
    ensures |GetSubjects(r)| != |GetSubjects(b)| ==> GetSubjects(r) == GetSubjects(b) + [s]
  {
    var ss := GetSubjects(b);
    var r := UpsertBy(ss, s, SubjectId);
    assert |r| == |ss| <==> exists j :: 0 <= j < |ss| && ss[j].id == s.id by {
      if exists j :: 0 <= j < |ss| && ss[j].id == s.id {
        var j :| 0 <= j < |ss| && ss[j].id == s.id;
        assert KeyIs(SubjectId, s.id)(ss[j]);
      }
    }
    b.(subjects := Some(r))
  }

  /** Saving an account twice leaves the store as saving it once. */
  lemma SaveUserIdempotent(b: Blob, u: User)
    ensures SaveUser(SaveUser(b, u), u) == SaveUser(b, u)
  {
    UpsertIdempotent(GetUsers(b), u, UserId);
  }

  /** Saving a subject twice leaves the store as saving it once. */
  lemma SaveSubjectIdempotent(b: Blob, s: Subject)
    ensures SaveSubject(SaveSubject(b, s), s) == SaveSubject(b, s)
  {
    UpsertIdempotent(GetSubjects(b), s, SubjectId);
  }

  /** With unique account ids, saving keeps them unique and leaves exactly one
      account with the saved id: the saved one. */
  lemma SaveUserKeepsIdsUnique(b: Blob, u: User)
    requires UniqueKeys(GetUsers(b), UserId)
    ensures UniqueKeys(GetUsers(SaveUser(b, u)), UserId)
    ensures forall v :: v in GetUsers(SaveUser(b, u)) && v.id == u.id ==> v == u
  {
    UpsertKeepsUniqueKeys(GetUsers(b), u, UserId);
  }

  // ---------------------------------------------------------------------
  // Grades: upsert by id or by (student, subject) pair.

  /** The entries `saveGrade` may overwrite for `g`: same id or same pair. */
  function SlotFor(g: Grade): Grade -> bool {
    (h: Grade) => h.id == g.id || SamePair(h, g)
  }

  /** The index `saveGrade` overwrites: the first entry with `g`'s id or
      `g`'s (student, subject) pair. */
  function GradeSlot(grades: seq<Grade>, g: Grade): (r: Option<nat>)
    ensures r.Some? ==> r.value < |grades| && (grades[r.value].id == g.id || SamePair(grades[r.value], g))
    ensures r.Some? ==> forall j :: 0 <= j < r.value ==> grades[j].id != g.id && !SamePair(grades[j], g)
    ensures r.None? <==> forall h :: h in grades ==> h.id != g.id && !SamePair(h, g)
  {
    FirstIndex(grades, SlotFor(g))
  }

  /** The list change of `saveGrade`: the matched entry is overwritten by `g`
      but keeps its own id; with no match, `g` is appended. Either way the
      pair's first entry afterwards carries `g`'s score and semester. */
  function UpsertGrade(grades: seq<Grade>, g: Grade): (r: seq<Grade>)
    ensures match GradeSlot(grades, g)
      case Some(i) =>
        && |r| == |grades| && r[i] == g.(id := grades[i].id)
        && forall j :: 0 <= j < |grades| && j != i ==> r[j] == grades[j]
      case None =>
        && |r| == |grades| + 1 && r[|grades|] == g
        && forall j :: 0 <= j < |grades| ==> r[j] == grades[j]
    ensures GradeFor(r, g.studentId, g.subjectId).Some?
    ensures GradeFor(r, g.studentId, g.subjectId).value.score == g.score
    ensures GradeFor(r, g.studentId, g.subjectId).value.semester == g.semester
  {
    var p := IsPair(g.studentId, g.subjectId);
    match GradeSlot(grades, g)
    case Some(i) =>
      var r := grades[i := g.(id := grades[i].id)];
      FirstIndexIs(r, p, i);
      r
    case None =>
      var r := grades + [g];
      FirstIndexIs(r, p, |grades|);
      r
  }

  /** `saveGrade` on the store. */
  function SaveGrade(b: Blob, g: Grade): (r: Blob)
    ensures r.grades.Some?
    ensures r.users == b.users && r.subjects == b.subjects && r.analysis == b.analysis
    ensures GetGrades(r) == UpsertGrade(GetGrades(b), g)
    ensures GradeFor(GetGrades(r), g.studentId, g.subjectId).Some?
    ensures GradeFor(GetGrades(r), g.studentId, g.subjectId).value.score == g.score
  {
    b.(grades := Some(UpsertGrade(GetGrades(b), g)))
  }

  /** Saving the same grade twice leaves the list as saving it once. */
  lemma UpsertGradeIdempotent(grades: seq<Grade>, g: Grade)
    ensures UpsertGrade(UpsertGrade(grades, g), g) == UpsertGrade(grades, g)
  {
    var r := UpsertGrade(grades, g);
    match GradeSlot(grades, g)
    case Some(i) =>
      FirstIndexIs(r, SlotFor(g), i);
      assert r[i := g.(id := r[i].id)] == r;
    case None =>
      FirstIndexIs(r, SlotFor(g), |grades|);
      assert r[|grades| := g.(id := r[|grades|].id)] == r;
  }

  /** Store-level idempotence of `saveGrade`. */
  lemma SaveGradeIdempotent(b: Blob, g: Grade)
    ensures SaveGrade(SaveGrade(b, g), g) == SaveGrade(b, g)
  {
    UpsertGradeIdempotent(GetGrades(b), g);
  }

  /** When the incoming id is fresh or already the pair's, `saveGrade` keeps
      both grade ids and (student, subject) pairs unique. */
  lemma UpsertGradeKeepsIntegrity(grades: seq<Grade>, g: Grade)
    requires PairUnique(grades) && UniqueKeys(grades, GradeId)
    requires IdFits(grades, g)
    ensures PairUnique(UpsertGrade(grades, g))
    ensures UniqueKeys(UpsertGrade(grades, g), GradeId)
  {
    var r := UpsertGrade(grades, g);
    match GradeSlot(grades, g)
    case Some(i) =>
      assert SamePair(grades[i], g);
      forall a, b | 0 <= a < b < |r|
        ensures !SamePair(r[a], r[b]) && r[a].id != r[b].id
      {
        if a == i {
          assert !SamePair(grades[i], grades[b]) && grades[i].id != grades[b].id;
        } else if b == i {
          assert !SamePair(grades[a], grades[i]) && grades[a].id != grades[i].id;
        }
      }
    case None =>
      forall a, b | 0 <= a < b < |r|
        ensures !SamePair(r[a], r[b]) && r[a].id != r[b].id
      {
        if b == |grades| {
          assert grades[a] in grades;
        }
      }
  }

  /** The id the pair's entry ends up with after saving `g`: the existing
      entry's id when the pair is already graded, otherwise `g`'s own. */
  function KeptId(grades: seq<Grade>, g: Grade): string {
    match GradeFor(grades, g.studentId, g.subjectId)
    case Some(e) => e.id
    case None => g.id
  }

  /** Under the id discipline, after one save every entry of `g`'s pair is
      `g` carrying the kept id. */
  lemma UpsertGradeSettlesPair(grades: seq<Grade>, g: Grade)
    requires PairUnique(grades)
    requires IdFits(grades, g)
    ensures forall h :: h in UpsertGrade(grades, g) && SamePair(h, g) ==> h == g.(id := KeptId(grades, g))
  {
    var r := UpsertGrade(grades, g);
    match GradeSlot(grades, g)
    case Some(i) =>
      assert grades[i] in grades;
      assert SamePair(grades[i], g);
      FirstIndexIs(grades, IsPair(g.studentId, g.subjectId), i);
      assert KeptId(grades, g) == grades[i].id;
      forall h | h in r && SamePair(h, g)
        ensures h == g.(id := KeptId(grades, g))
      {
        var j :| 0 <= j < |r| && r[j] == h;
      }
    case None =>
      assert KeptId(grades, g) == g.id;
      forall h | h in r && SamePair(h, g)
        ensures h == g
      {
        var j :| 0 <= j < |r| && r[j] == h;
      }
  }

  /** Two saves for the same pair leave exactly one entry for that pair,
      carrying the second score and the identity the first save settled on:
      the existing entry's id, or the first payload's id if the pair was
      new. Each payload's id must fit, which the Gradebook guarantees. */
  lemma SaveGradeTwice(grades: seq<Grade>, g1: Grade, g2: Grade)
    requires PairUnique(grades) && UniqueKeys(grades, GradeId)
    requires IdFits(grades, g1)
    requires SamePair(g1, g2)
    requires IdFits(UpsertGrade(grades, g1), g2)
    ensures PairUnique(UpsertGrade(UpsertGrade(grades, g1), g2))
    ensures GradeFor(UpsertGrade(UpsertGrade(grades, g1), g2), g2.studentId, g2.subjectId)
            == Some(g2.(id := KeptId(grades, g1)))
  {
    var r1 := UpsertGrade(grades, g1);
    UpsertGradeKeepsIntegrity(grades, g1);
    UpsertGradeSettlesPair(grades, g1);
    var e1 := GradeFor(r1, g2.studentId, g2.subjectId).value;
    assert e1 in r1 && SamePair(e1, g1);
    assert KeptId(r1, g2) == KeptId(grades, g1);
    var r2 := UpsertGrade(r1, g2);
    UpsertGradeKeepsIntegrity(r1, g2);
    UpsertGradeSettlesPair(r1, g2);
    var e2 := GradeFor(r2, g2.studentId, g2.subjectId).value;
    assert e2 in r2 && SamePair(e2, g2);
  }

  /** Without the caller's id discipline the pair invariant breaks: a payload
      whose id belongs to another pair's entry overwrites that entry, and its
      pair is then recorded twice. */
  lemma SaveGradeNeedsFittingId()
    ensures var grades := [Grade("g1", "s1", "math", 80, "Fall 2024"), Grade("g2", "s2", "math", 70, "Fall 2024")];
      var g := Grade("g1", "s2", "math", 90, "Fall 2024");
      && PairUnique(grades)
      && !IdFits(grades, g)
      && !PairUnique(UpsertGrade(grades, g))
  {
    var grades := [Grade("g1", "s1", "math", 80, "Fall 2024"), Grade("g2", "s2", "math", 70, "Fall 2024")];
    var g := Grade("g1", "s2", "math", 90, "Fall 2024");
    assert GradeSlot(grades, g) == Some(0) by {
      FirstIndexIs(grades, SlotFor(g), 0);
    }
    var r := UpsertGrade(grades, g);
    assert SamePair(r[0], r[1]);
    assert grades[0] in grades;
  }

  // ---------------------------------------------------------------------
  // Deletion with cascade.

  /** `deleteUser`: the account and every grade of that student go; the
      survivors keep their relative order; subjects and the analysis log are
      untouched. */
  function DeleteUser(b: Blob, id: string): (r: Blob)
    ensures r.subjects == b.subjects && r.analysis == b.analysis
    ensures forall u :: u in GetUsers(r) <==> u in GetUsers(b) && u.id != id
    ensures forall g :: g in GetGrades(r) <==> g in GetGrades(b) && g.studentId != id
    ensures Subseq(GetUsers(r), GetUsers(b)) && Subseq(GetGrades(r), GetGrades(b))
    ensures (forall u :: u in GetUsers(b) ==> u.id != id) ==> GetUsers(r) == GetUsers(b)
    ensures (forall g :: g in GetGrades(b) ==> g.studentId != id) ==> GetGrades(r) == GetGrades(b)
  {
    b.(users := Some(Filter(GetUsers(b), KeyIsNot(UserId, id))),
       grades := Some(Filter(GetGrades(b), KeyIsNot(GradeStudent, id))))
  }

  /** `deleteSubject`: the subject and every grade in it go; the survivors
      keep their relative order; accounts and the analysis log are
      untouched. */
  function DeleteSubject(b: Blob, id: string): (r: Blob)
    ensures r.users == b.users && r.analysis == b.analysis
    ensures forall s :: s in GetSubjects(r) <==> s in GetSubjects(b) && s.id != id
    ensures forall g :: g in GetGrades(r) <==> g in GetGrades(b) && g.subjectId != id
    ensures Subseq(GetSubjects(r), GetSubjects(b)) && Subseq(GetGrades(r), GetGrades(b))
    ensures (forall s :: s in GetSubjects(b) ==> s.id != id) ==> GetSubjects(r) == GetSubjects(b)
    ensures (forall g :: g in GetGrades(b) ==> g.subjectId != id) ==> GetGrades(r) == GetGrades(b)
  {
    b.(subjects := Some(Filter(GetSubjects(b), KeyIsNot(SubjectId, id))),
       grades := Some(Filter(GetGrades(b), KeyIsNot(GradeSubject, id))))
  }

  /** Every grade refers to an existing account and an existing subject. */
  ghost predicate NoDanglingGrades(b: Blob) {
    forall g :: g in GetGrades(b) ==>
      g.studentId in Keys(GetUsers(b), UserId) && g.subjectId in Keys(GetSubjects(b), SubjectId)
  }

  /** Both cascading deletes keep every remaining grade pointing at an
      existing account and subject. */
  lemma DeletesKeepNoDangling(b: Blob, id: string)
    requires NoDanglingGrades(b)
    ensures NoDanglingGrades(DeleteUser(b, id))
    ensures NoDanglingGrades(DeleteSubject(b, id))
  {
    var ru := DeleteUser(b, id);
    forall g | g in GetGrades(ru)
      ensures g.studentId in Keys(GetUsers(ru), UserId)
    {
      var j :| 0 <= j < |GetUsers(b)| && GetUsers(b)[j].id == g.studentId;
      assert GetUsers(b)[j] in GetUsers(ru);
    }
    var rs := DeleteSubject(b, id);
    forall g | g in GetGrades(rs)
      ensures g.subjectId in Keys(GetSubjects(rs), SubjectId)
    {
      var j :| 0 <= j < |GetSubjects(b)| && GetSubjects(b)[j].id == g.subjectId;
      assert GetSubjects(b)[j] in GetSubjects(rs);
    }
  }

  /** Deleting an id no account has leaves every collection reading the
      same, provided no grade dangles. */
  lemma DeleteAbsentUserIsNoop(b: Blob, id: string)
    requires NoDanglingGrades(b)
    requires forall u :: u in GetUsers(b) ==> u.id != id
    ensures GetUsers(DeleteUser(b, id)) == GetUsers(b)
    ensures GetGrades(DeleteUser(b, id)) == GetGrades(b)
    ensures GetSubjects(DeleteUser(b, id)) == GetSubjects(b)
  {
    forall g | g in GetGrades(b)
      ensures g.studentId != id
    {
      var j :| 0 <= j < |GetUsers(b)| && GetUsers(b)[j].id == g.studentId;
      assert GetUsers(b)[j] in GetUsers(b);
    }
  }

  /** Deleting an id no subject has leaves every collection reading the
      same, provided no grade dangles. */
  lemma DeleteAbsentSubjectIsNoop(b: Blob, id: string)
    requires NoDanglingGrades(b)
    requires forall s :: s in GetSubjects(b) ==> s.id != id
    ensures GetSubjects(DeleteSubject(b, id)) == GetSubjects(b)
    ensures GetGrades(DeleteSubject(b, id)) == GetGrades(b)
    ensures GetUsers(DeleteSubject(b, id)) == GetUsers(b)
  {
    forall g | g in GetGrades(b)
      ensures g.subjectId != id
    {
      var j :| 0 <= j < |GetSubjects(b)| && GetSubjects(b)[j].id == g.subjectId;
      assert GetSubjects(b)[j] in GetSubjects(b);
    }
  }

  // ---------------------------------------------------------------------
  // The AI-analysis log.

  /** `saveAnalysis`: appends to the end of the log; nothing else changes. */
  function SaveAnalysis(b: Blob, a: AnalysisResult): (r: Blob)
    ensures r.users == b.users && r.subjects == b.subjects && r.grades == b.grades
    ensures |GetAnalyses(r)| == |GetAnalyses(b)| + 1
    ensures GetAnalyses(r)[..|GetAnalyses(b)|] == GetAnalyses(b)
    ensures GetAnalyses(r)[|GetAnalyses(b)|] == a
  {
    b.(analysis := Some(GetAnalyses(b) + [a]))
  }

  /** `getAnalysis`: the last log entry for the student, or None. */
  function GetAnalysis(b: Blob, studentId: string): (r: Option<AnalysisResult>)
    ensures r.None? <==> forall a :: a in GetAnalyses(b) ==> a.studentId != studentId
    ensures r.Some? ==> r.value in GetAnalyses(b) && r.value.studentId == studentId
  {
    var matching := Filter(GetAnalyses(b), KeyIs(AnalysisStudent, studentId));
    if |matching| == 0 then None else Some(matching[|matching| - 1])
  }

  /** Appending one entry to the log extends a student's entries by that
      entry exactly when it is the student's. */
  lemma AppendedEntries(log: seq<AnalysisResult>, a: AnalysisResult, studentId: string)
    ensures Filter(log + [a], KeyIs(AnalysisStudent, studentId))
      == Filter(log, KeyIs(AnalysisStudent, studentId)) + (if a.studentId == studentId then [a] else [])
  {
    var p := KeyIs(AnalysisStudent, studentId);
    FilterAppend(log, [a], p);
    assert Filter([a], p) == (if a.studentId == studentId then [a] else []) by {
      assert [a][1..] == [];
    }
  }

  /** The entry just appended is the one found for its student, and every
      other student's lookup is unaffected: lookup returns the latest. */
  lemma LatestAnalysisWins(b: Blob, a: AnalysisResult, studentId: string)
    ensures GetAnalysis(SaveAnalysis(b, a), a.studentId) == Some(a)
    ensures studentId != a.studentId ==> GetAnalysis(SaveAnalysis(b, a), studentId) == GetAnalysis(b, studentId)
  {
    var log := GetAnalyses(b);
    var b' := SaveAnalysis(b, a);
    assert GetAnalyses(b') == log + [a];
    var mine := Filter(log, KeyIs(AnalysisStudent, a.studentId));
    AppendedEntries(log, a, a.studentId);
    assert Filter(GetAnalyses(b'), KeyIs(AnalysisStudent, a.studentId)) == mine + [a];
    if studentId != a.studentId {
      AppendedEntries(log, a, studentId);
      assert Filter(GetAnalyses(b'), KeyIs(AnalysisStudent, studentId))
        == Filter(log, KeyIs(AnalysisStudent, studentId));
    }
  }
}

=== FILE: types.dfy ===
/** The records of the student-records system: accounts, subjects, grades and
    AI-analysis log entries. Identifiers are opaque strings, as in the
    front-end (the SQL schema's integer ids are handled as strings there). */
module Types {
  import opened Wrappers

  /** An account is exactly one of these two roles. */
  datatype UserRole = Admin | Student

  /** An account is in exactly one of these three states. */
  datatype AccountStatus = Pending | Approved | Rejected

  /** An account. The password is optional and kept as a plain value; a
      missing password never equals a typed one. */
  datatype User = User(
    id: string,
    username: string,
    password: Option<string>,
    fullName: string,
    role: UserRole,
    status: AccountStatus,
    email: string)

  datatype Subject = Subject(id: string, name: string, code: string, credits: int)

  /** A score for one student in one subject. The score is documented as
      0-100 but the record itself does not enforce it (see `ScoreInRange`). */
  datatype Grade = Grade(id: string, studentId: string, subjectId: string, score: int, semester: string)

  /** An entry of the AI-analysis log. It has no identifier: it is found by
      its student and its position in the log. */
  datatype AnalysisResult = AnalysisResult(studentId: string, analysis: string, generatedAt: string)

  // Key functions, passed to the generic operations of `Lists`.
  const UserId: User -> string := (u: User) => u.id
  const Username: User -> string := (u: User) => u.username
  const SubjectId: Subject -> string := (s: Subject) => s.id
  const GradeId: Grade -> string := (g: Grade) => g.id
  const GradeStudent: Grade -> string := (g: Grade) => g.studentId
  const GradeSubject: Grade -> string := (g: Grade) => g.subjectId
  const AnalysisStudent: AnalysisResult -> string := (a: AnalysisResult) => a.studentId

  /** The documented range of a score. */
  predicate ScoreInRange(score: int) {
    0 <= score <= 100
  }

  /** Both grades are for the same (student, subject) pair. */
  predicate SamePair(g: Grade, h: Grade) {
    g.studentId == h.studentId && g.subjectId == h.subjectId
  }
}

=== FILE: wrappers.dfy ===
/** The optional-value datatype used wherever the JavaScript code returns
    `undefined`, uses `-1` for "not found", or reads a storage key that may be
    absent. */
module Wrappers {

  datatype Option<+T> = None | Some(value: T) {

    /** The encapsulated value, or `default` when there is none
        (JavaScript's `x || default` on a possibly-missing value). */
    function GetOr(default: T): T {
      match this
      case Some(v) => v
      case None => default
    }
  }
}
